=== FILE: README.md ===
# bgbye video background removal: the job orchestrator in Dafny

The bgbye server removes image backgrounds with one of six models: BRIA, InSPyReNet,
and four rembg sessions. A single image is handled by `POST /remove_background/`. A video
is stored under an id, and the background job `process_video` then does the following:

1. It probes the frame count and rejects videos over 250 frames.
2. It extracts the frames as `frame_%05d.png`, runs the chosen model on each frame in sorted
   order, and encodes them into `temp_videos/output_<id>.webm`.
3. It publishes its progress in the in-memory registry `processing_status[id]`, which
   `GET /status/{id}` reads back.

A background janitor deletes whatever under `temp_videos` is more than ten minutes old.

This project models that core as pure functions and proves what it does:

- **`Orchestrator.ProcessVideo`** is the job as a function of what its external steps
  return. The probe, extraction and encoder subprocesses become exit codes and output. The
  models become per-frame faults. The result is two ordered lists plus one flag:
  - every write to the job's status record;
  - every effect on the world: subprocesses, frame files, the frames directory, and the
    InSPyReNet model's place on the accelerator;
  - whether an exception escapes the `finally` block.

  Replaying the effects gives the world the job leaves behind.
- **`Text` and `Sorting`** model the Python behaviour the job depends on: string order,
  `sorted`, `strip()`, `int()` and its error text, and `str(n)` and `%05d`.
- **`Naming`** holds the file names. **`Backends`** holds method dispatch, the per-frame step
  and the single-image endpoint. **`Status`** holds the records, the registry and the status
  endpoint. **`Janitor`** holds one janitor pass.
- **`JobProperties`** holds the properties of the job:
  - how each stage ends it;
  - when it completes;
  - how progress moves;
  - that frames are visited in temporal order;
  - that nothing of the frames directory survives;
  - where the accelerator ends up;
  - what the status endpoint answers afterwards.

The model follows `server/server.py` as written; three of its behaviours are easy to miss:

- The completed record (line 235) carries no `progress` field.
- The per-frame records (line 205) carry no message.
- An unknown method is noticed only when the first frame has been read (line 130). By then
  the probe and the extraction have already run.

## Model

| member | source | states |
|---|---|---|
| Text.Less | server/server.py:191 | the string `<` that `sorted` uses: code point by code point, with a proper prefix first. It has no contract of its own; its properties are the rows Text.LessTotal, Text.LessTransitive and Text.LessConcatSameLength |
| Text.LessTotal | server/server.py:191 | Python's string order relates any two distinct strings, so `sorted` on the frame names has a single answer |
| Text.LessTransitive | server/server.py:191 | Python's string order is transitive |
| Text.LessConcatSameLength | server/server.py:191 | names that share a prefix length compare by their prefixes first and by the rest only on a tie |
| Text.Strip | server/server.py:160 | `strip()` leaves no whitespace at either end of its result, and gives the empty string exactly when the text is all whitespace; Text.StripPadded and Text.StripIdempotent state what it removes otherwise |
| Text.StripPadded | server/server.py:160 | `strip()` removes exactly the whitespace around a non-blank text and nothing inside it |
| Text.StripIdempotent | server/server.py:160 | stripping a stripped text changes nothing |
| Text.FixedWidthOrder | server/server.py:175 | `%05d`-style numerals compare as strings exactly as their values compare |
| Text.PyInt | server/server.py:160 | `int()` on a string, ignoring surrounding whitespace. It has no contract of its own; its properties are the rows Text.ParseDecimal, Text.ParseDecimalLine and JobProperties.PrintedCountGate |
| Text.IntErrorMessage | server/server.py:160 | the text of `int()`'s ValueError: the fixed prefix, then at most 200 characters of the quoted argument, cut from its start, and the whole quoted argument exactly when it fits in 200 characters |
| Text.LongLiteralCut | server/server.py:160 | an argument of 199 characters or more appears in the error text as its first 199 characters after the opening quote, with no closing quote |
| Text.ParseDecimal | server/server.py:160 | `int(str(n))` is `n` for every integer, negatives included |
| Text.ParseDecimalLine | server/server.py:160 | a count printed as a numeral and a newline is read back by `int(out.strip())` as that count |
| Sorting.Sort | server/server.py:191 | `sorted` returns an ordered permutation of its input |
| Sorting.SortedUnique | server/server.py:191 | two ordered arrangements of the same names are the same list |
| Sorting.SortRestores | server/server.py:191 | sorting any shuffle of a strictly ordered list gives that list back |
| Naming.PngOnly | server/server.py:191 | the `.png` filter keeps a name exactly when the listing has it and it ends in `.png`, and never lengthens the listing; Naming.PngOnlyCounts states how many times each name is kept |
| Naming.PngOnlyCounts | server/server.py:191 | the filter keeps each `.png` name as many times as the listing has it, and drops every other name |
| Naming.FrameName | server/server.py:175 | the name `frame_%05d.png` the extractor gives frame n and the encoder reads back (line 215). It has no contract of its own; its properties are the rows Naming.FrameNameOrder, Naming.FrameNameIsPng and Naming.FramesStrictlySorted |
| Naming.FrameNameOrder | server/server.py:175 | for frame numbers below 100000, one `frame_%05d.png` name sorts before another exactly when its number is smaller |
| Naming.FrameOrderBreaksAtSixDigits | server/server.py:175 | the bound is tight: frame 100000 sorts before frame 99999 |
| Naming.FrameNameIsPng | server/server.py:175 | every extracted frame name passes the `.png` filter |
| Naming.FramesStrictlySorted | server/server.py:175 | the names of frames 1..n (n < 100000) come in strictly ascending string order |
| Naming.ExtractedFramesInOrder | server/server.py:191 | whatever order the listing comes in, the sorted `.png` names of frames 1..n are frame 1, 2, ..., n |
| Naming.OutputPathInjective | server/server.py:211 | distinct job ids never share an output file |
| Naming.FramesDirInjective | server/server.py:169 | distinct job ids never share a frames directory, so one job's clean-up never removes another's frames |
| Naming.InputPathInjective | server/server.py:263 | distinct job ids never share an input file |
| Naming.InputNeverOutput | server/server.py:263 | no job's input file is any job's output file |
| Backends.Dispatch | server/server.py:120-130 | a backend is chosen exactly for the six known methods: InSPyReNet only for `inspyrenet`, BRIA only for `bria`, and otherwise the rembg session of the same name |
| Backends.ProcessFrame | server/server.py:120-132 | a frame is transformed exactly when the method is known and the frame has no fault; a read fault wins over an unknown method, which wins over a backend fault; a backend fault under a known method reports its own text and the backend that was called |
| Backends.Serve | server/server.py:88-118 | the `remove_background` handler, with or without its 400 passed through. It has no contract of its own; its properties are the rows Backends.RemoveBackground and Backends.RemoveBackgroundIntended |
| Backends.RemoveBackground | server/server.py:88-118 | the endpoint returns a PNG exactly when decoding, dispatch, the backend and the PNG save all succeed, and answers every failure with 500. The 500's detail is the message of the failing step. A request whose upload does not decode leaves the accelerator as it was, and so do other methods; for `inspyrenet` with a decoded image, the model stays on the accelerator exactly when the backend call fails |
| Backends.RemoveBackgroundIntended | server/server.py:88-118 | with the 400 passed through, an unknown method gets 400 "Invalid method", and known methods get the same answer as before |
| Backends.InvalidMethodBecomes500 | server/server.py:104-118 | as written, an unknown method is answered 500 with detail "400: Invalid method" |
| Backends.IntendedInvalidMethodIs400 | server/server.py:104-118 | the corrected endpoint answers an unknown method with 400 "Invalid method" and every other request as before |
| Backends.SingleImageBackendFailureKeepsAccelerator | server/server.py:97-101 | an InSPyReNet failure inside the backend call on a single image skips the move back to the host: the model stays on the accelerator, and the answer is 500 with the failure's text |
| Backends.SingleImageEncodeFailureReleasesAccelerator | server/server.py:99-112 | a failure saving the result as PNG comes after the model was moved back: the answer is 500 with the failure's text and the model is on the host |
| Backends.SingleImageSuccessReleasesAccelerator | server/server.py:97-101 | a successful InSPyReNet call on a single image returns the model to the host |
| Status.Commit | server/server.py:139-239 | a job's writes replace only its own key, and the key ends holding the last write |
| Status.GetStatus | server/server.py:287-301 | the status endpoint gives 404 for an unknown id, the file for a completed job whose output exists, 404 when that file is gone, 500 for a completed record without a path, and any other record unchanged |
| Status.WellFormedNeverServerError | server/server.py:294-295 | records shaped as the job writes them never make the status endpoint fail with 500 |
| Status.StatusIsolation | server/server.py:287-301 | committing one job's writes changes no other job's status answer |
| Orchestrator.ProcessVideo | server/server.py:134-254 | `process_video` as written. It has no contract of its own; its properties are the JobProperties rows |
| Orchestrator.Execute | server/server.py:134-254 | the acquire, try, except and finally structure shared by the job as written and the guarded job. It has no contract of its own; its properties are the rows JobProperties.EscapesIff, JobProperties.CleanupAfterFramesDir and JobProperties.GuardedSameWrites |
| Orchestrator.TryBlock | server/server.py:139-235 | the try block, stage by stage. It has no contract of its own; its properties are the row JobProperties.TrailShape and the stage rows |
| Orchestrator.FrameLoop | server/server.py:200-205 | the loop writes one record per transformed frame, with progress (i+1)/n*100. It finishes exactly when the method is known and no frame faults. An unknown method stops it at the first frame, after that frame has been read. Its effects never touch the accelerator or the directory |
| Orchestrator.FirstFault | server/server.py:200-203 | the index of the first frame from a given one on that faults: no frame before it faults, and the frame at it does unless it is the end of the list |
| Orchestrator.UnreadableFrameStopsLoop | server/server.py:200-202 | a frame that cannot be opened stops the loop with its exception, whatever the method, with nothing written and no backend called |
| Orchestrator.LoopWritesBeforeFirstFault | server/server.py:200-205 | under a known method the loop writes exactly one record per frame before the first faulting frame |
| Orchestrator.LoopStopsAtFirstFault | server/server.py:200-203 | under a known method the loop stops at the first faulting frame with that frame's exception, having read and transformed every frame before it; after the faulting frame's read, only its own backend call follows, and only when the read succeeded |
| JobProperties.ProbeFailureEndsJob | server/server.py:155-158 | a failed probe ends the job with "Error counting frames", nothing after the probe runs, and the `finally` block raises |
| JobProperties.TooLongRejected | server/server.py:163-166 | a count above 250 ends the job with "Video too long (max 250 frames)", with no frames directory and no extraction |
| JobProperties.PrintedCountGate | server/server.py:160-170 | a printed count n is read back as n: n <= 250 (250 included) goes on to the frames directory and extraction, and n > 250 returns early |
| JobProperties.UnparsableCountFails | server/server.py:237-243 | an unparsable count ends the job with `int()`'s error text, and the except handler releases the accelerator |
| JobProperties.BlankCountFails | server/server.py:160 | a probe that exits 0 but prints only whitespace (a file without a video stream) is not read as zero frames: `int('')` raises, the job ends with `invalid literal for int() with base 10: ''`, and the clean-up raises |
| JobProperties.ExtractFailureEndsJob | server/server.py:184-187 | a failed extraction ends the job with "Error extracting frames", and its files and directory are removed |
| JobProperties.NoFramesEndsJob | server/server.py:190-198 | an extraction without `.png` files ends the job with "No frames were extracted from the video" before any backend runs |
| JobProperties.UnknownMethodDetectedLate | server/server.py:120-130 | an unknown method ends the job with "Invalid method" only after the probe, the extraction and the first frame read |
| JobProperties.LoopSucceedsIff | server/server.py:200-205 | the loop gets through every frame exactly when the method is known and no `.png` frame faults |
| JobProperties.EncodeFailureEndsJob | server/server.py:229-232 | a failed encoding ends the job with "Error creating output video" |
| JobProperties.ProbeRaisedEndsJob | server/server.py:148-153 | a probe that cannot be started ends the job with the exception's text; the except handler releases the accelerator and the `finally` block raises |
| JobProperties.ExtractRaisedEndsJob | server/server.py:177-182 | an extractor that cannot be started ends the job with the exception's text; the empty frames directory is removed, and the accelerator is released by the except handler and by the `finally` block |
| JobProperties.FrameFaultEndsJob | server/server.py:200-205 | under a known method, the first faulting frame ends the job with its exception's text, after the records of the frames before it; those frames are transformed, the encoder never runs, and the frames directory is cleaned up |
| JobProperties.EncodeRaisedEndsJob | server/server.py:222-227 | an encoder that cannot be started after every frame went through ends the job with the exception's text, after the encoding record; nothing escapes |
| JobProperties.CompletedIff | server/server.py:234-235 | the job ends `completed` exactly when every stage succeeds, and then points at `temp_videos/output_<id>.webm` |
| JobProperties.CompletedTrace | server/server.py:134-254 | a completed job's full history of writes and effects |
| JobProperties.FrameProgressBounds | server/server.py:204 | per-frame progress lies in (0, 100] and is 100 exactly at the last frame |
| JobProperties.FrameProgressIncreasing | server/server.py:204 | per-frame progress strictly grows |
| JobProperties.ProgressNeverDecreases | server/server.py:139-210 | every write has a shape the status endpoint expects, every progress lies in [0, 100], and the progress never goes down |
| JobProperties.FramesVisitedInTemporalOrder | server/server.py:191-200 | extracted frames are transformed in frame-number order, whatever the listing order |
| JobProperties.TrailShape | server/server.py:169-203 | `frames_dir` is assigned exactly when the gate is passed. Before that the job runs only the probe. After it, only frame reads, backend calls and the encoding follow the extraction |
| JobProperties.FinalWorld | server/server.py:245-254 | at the end the frames directory and its files are gone. InSPyReNet's model is back on the host, except after an early return as written |
| JobProperties.EscapesIff | server/server.py:245-249 | as written, the `finally` block raises exactly when the job ended before `frames_dir` was assigned; the guarded version never raises |
| JobProperties.CleanupAfterFramesDir | server/server.py:241-254 | once `frames_dir` exists, the job ends by removing every listed file, then the directory, then releasing the accelerator. After an exception, the except handler releases it too |
| JobProperties.EarlyExitKeepsAccelerator | server/server.py:245-254 | as written, an InSPyReNet job that fails its probe or is too long leaves the model on the accelerator |
| JobProperties.GuardedCleanupReleases | server/server.py:245-254 | with `frames_dir` guarded, an InSPyReNet job always returns the model to the host, never raises, and writes the same records |
| JobProperties.GuardedSameWrites | server/server.py:245-254 | for every job, the guarded clean-up makes the same writes, never raises, extends the effects of the job as written, and changes nothing for a job that does not raise |
| JobProperties.StatusAfterJob | server/server.py:287-301 | after a job: a completed one whose output exists is served as a file; a completed one whose output is gone gets 404; any other job gets its `error` record. Other jobs' answers are unchanged |
| JobProperties.TerminalWrite | server/server.py:229-239 | a job never stays `processing` once it is over |
| Janitor.Sweep | server/server.py:47-59 | a pass deletes only listed items that are more than ten minutes old and are files or directories. It keeps everything else unchanged, and when it completes it deletes every such item |
| Janitor.SweepDeletesExactlyExpired | server/server.py:49-59 | when nothing listed has vanished, a pass leaves exactly the survivors of the age test |
| Janitor.BoundaryKept | server/server.py:53 | an item exactly ten minutes old is kept, and one a microsecond older is deleted |
| Janitor.SweepIdempotent | server/server.py:49-59 | a second pass at the same instant deletes nothing |
| Janitor.SweepCrashesOnVanished | server/server.py:50-52 | a listed item that vanished before its `getmtime` ends the pass there, and the items after it are not examined |

## Left out

- Subprocesses: ffprobe and ffmpeg are not run.
  - Each becomes a `Run`: an exit code and standard output, or the exception raised on start.
  - The extractor's effect is the directory listing it leaves.
  - The command lines are not modelled. That includes the probe binary name `ffmpeg.ffprobe`, which may not exist on a given host. If so, every job ends in the raised-probe path.
- The models: BRIA, InSPyReNet, the rembg sessions and torch's CUDA calls are foreign code.
  - A frame is either transformed or raises, on reading or in the backend.
  - Saving a transformed frame in place is folded into the backend step for the video.
    For the single-image endpoint, the PNG save is a fault of its own.
  - The accelerator is one boolean: whether InSPyReNet's model is on it.
- PIL decoding and encoding, the timing print, and the response bodies are not modelled. The
  single-image endpoint is reduced to which answer and which status it gives.
- FastAPI routing, CORS, multipart upload, the upload endpoint's file writing and its uuid
  generation: transport glue. Job ids are arbitrary strings.
- Concurrency is left out: `asyncio.to_thread`, background tasks, the janitor's `while True` /
  `sleep(600)` loop, and interleaving between jobs and the janitor. One job is a sequential
  function, and one janitor pass is another.
- The janitor may delete a running job's files or the shared `frames` directory. That
  interaction is not modelled.
- Logging is left out, with one consequence. The error logs at lines 156, 185 and 230
  call `stderr.decode()`. On ffmpeg error output that is not valid UTF-8 this raises
  `UnicodeDecodeError` before the stage's error record is written, so the job ends through the
  except handler with the decoder's message. It does not end with "Error counting frames",
  "Error extracting frames" or "Error creating output video". The model takes the error output
  to decode, so ProbeFailureEndsJob, ExtractFailureEndsJob and EncodeFailureEndsJob describe
  only that case.
- Floating point is left out. Progress is a Dafny `real`, so float rounding of
  `(i + 1) / total_frames * 100` is not modelled.
- `int()` is modelled on ASCII digits. Python also accepts other Unicode decimal digits.
- `int()` and `str()` are modelled without the digit limit that CPython enforces by default
  from 3.11 (and 3.10.7): converting more than 4300 digits raises `ValueError`. The server's
  Python version is not part of this model.
- Text.ParseDecimal: the round trip `int(str(n)) == n` holds in CPython only for `n` of at
  most 4300 digits, because beyond that `str(n)` raises.
- Text.ParseDecimalLine: a count printed with more than 4300 digits makes `int()` raise
  rather than return it.
- JobProperties.PrintedCountGate: for a printed count of more than 4300 digits, CPython's
  `int()` raises. The job then ends through the except handler with the limit's error text,
  releasing the accelerator, instead of returning early with "Video too long". TooLongRejected
  takes the same unlimited `int()`.
- The error text of `int()` quotes the argument between plain quotes and cuts the quoted
  form to 200 characters. Python's `repr` escaping of quotes, backslashes and control
  characters is not modelled.
- A probe output that fails to decode as UTF-8 is not modelled.
- The listing order of `os.listdir` is an arbitrary input. The frames directory's listing in
  the `finally` block is taken to be the extractor's listing. Frames are saved in place, so
  the names do not change.
- Janitor.Sweep times: they are integers in microseconds, the resolution `datetime`
  compares at.
  - Rounding a float modification time to microseconds is not modelled.
  - Local-time shifts between `datetime.now()` and `datetime.fromtimestamp` are not modelled.
  - Deleting a directory with `rmtree` is one step, and a failure inside it is not modelled.
  - Items that are neither files nor directories are skipped, as in the code.
- Backends.RemoveBackground: the detail of the 500 for an unknown method is the text
  "400: Invalid method". This takes the web framework's rendering of an HTTP exception as
  `"<status>: <detail>"`. That framework is not part of this model.
- The writes-level lemmas (the stage lemmas, progress and `StatusAfterJob`) are stated for
  `ProcessVideo` as written. `GuardedSameWrites` proves that for every job the guarded
  version makes exactly the same writes, so they hold for the corrected job too.

## Findings

| source | as written | input that shows it | evidently intended | confidence | as-written member | corrected member |
|---|---|---|---|---|---|---|
| server/server.py:245-254 | the `finally` block lists `frames_dir`, which is first assigned at line 169. The returns at 158 and 166 leave it unbound, so the block raises before it moves InSPyReNet's model back to the host | method `inspyrenet` with a probe exiting 1, or printing `300` | the clean-up skips the missing directory and always releases the model | high; not executed | JobProperties.EarlyExitKeepsAccelerator | JobProperties.GuardedCleanupReleases |
| server/server.py:104-118 | the 400 raised for an unknown method is caught by the catch-all handler and answered as 500 | a decodable image with method `foo` | an unknown method is answered 400 "Invalid method" | high for the status, medium for the detail text; not executed | Backends.InvalidMethodBecomes500 | Backends.IntendedInvalidMethodIs400 |

=== FILE: backends.dfy ===
/** Selection of the background-removal backend by method name, the per-frame step of the
    video pipeline, and the single-image endpoint that shares the same selection. The
    backends themselves are foreign code: only whether a call succeeds is modelled. */
module Backends {
  import opened Wrappers
  import opened Text

  /** The loaded models: the BRIA pipeline, InSPyReNet, and the rembg sessions by name. */
  datatype Backend = Bria | Inspyrenet | Rembg(session: string)

  /** The names rembg sessions are loaded under at start-up. */
  const RembgSessions: set<string> := {"u2net", "u2net_human_seg", "isnet-general-use", "isnet-anime"}

  /** Every method name a request may carry. */
  const Methods: set<string> := {"bria", "inspyrenet"} + RembgSessions

  /** The method that moves its model onto the accelerator while it runs. */
  const AcceleratedMethod := "inspyrenet"

  const InvalidMethod := "Invalid method"

  /** The if/elif chain that picks a backend; `None` is the final `else`. */
  function Dispatch(methodName: string): (b: Option<Backend>)
    ensures b.Some? <==> methodName in Methods
    ensures b == Some(Inspyrenet) <==> methodName == AcceleratedMethod
    ensures b == Some(Bria) <==> methodName == "bria"
    ensures b.Some? && b.value.Rembg? ==> b.value.session == methodName && methodName in RembgSessions
  {
    if methodName == "bria" then Some(Bria)
    else if methodName == "inspyrenet" then Some(Inspyrenet)
    else if methodName in RembgSessions then Some(Rembg(methodName))
    else None
  }

  /** What can go wrong with one frame: opening it as an image, or running the backend on it
      and saving the result in place. */
  datatype FrameFault = ReadRaises(message: string) | SegmentRaises(message: string)

  /** The result of one frame: the backend that transformed it, or the exception raised and
      the backend (if any) that was called before it. */
  datatype FrameOutcome =
    | Transformed(backend: Backend)
    | FrameFailed(message: string, called: Option<Backend>)

  /** Transforming one frame: the image is opened first, then the backend is chosen, so an
      unknown method is only noticed once a frame has been read. Frames absent from `faults`
      go through. */
  function ProcessFrame(name: string, methodName: string, faults: map<string, FrameFault>): (r: FrameOutcome)
    ensures r.Transformed? <==> methodName in Methods && name !in faults
    ensures r.Transformed? ==> Dispatch(methodName) == Some(r.backend)
    ensures name in faults && faults[name].ReadRaises? ==> r == FrameFailed(faults[name].message, None)
    ensures methodName !in Methods && !(name in faults && faults[name].ReadRaises?) ==> r == FrameFailed(InvalidMethod, None)
    ensures r.FrameFailed? && r.called.Some? ==> methodName in Methods && name in faults && faults[name] == SegmentRaises(r.message)
    ensures methodName in Methods && name in faults && faults[name].SegmentRaises? ==>
      r == FrameFailed(faults[name].message, Dispatch(methodName))
  {
    if name in faults && faults[name].ReadRaises? then FrameFailed(faults[name].message, None)
    else match Dispatch(methodName)
      case None => FrameFailed(InvalidMethod, None)
      case Some(b) =>
        if name in faults then FrameFailed(faults[name].message, Some(b)) else Transformed(b)
  }

  // ---------------------------------------------------------------------------
  // The single-image endpoint.
  // ---------------------------------------------------------------------------

  /** One request: the method name, and what goes wrong, if anything, decoding the upload,
      running the backend (while InSPyReNet's model sits on the accelerator), or saving the
      result as PNG (after the model has been moved back). */
  datatype ImageRequest = ImageRequest(methodName: string, decodeFault: Option<string>,
    backendFault: Option<string>, encodeFault: Option<string>)

  datatype ImageResponse = PngImage(backend: Backend) | HttpError(status: int, detail: string)

  /** The response, and whether the InSPyReNet model is left on the accelerator. */
  datatype Served = Served(response: ImageResponse, accelHeld: bool)

  /** How an HTTP exception reads as text when another handler formats it. */
  function HttpExceptionText(status: int, detail: string): string {
    Decimal(status) + ": " + detail
  }

  /** The request handler. With `rethrowHttp` false it is the code as written: the catch-all
      handler also catches the handler's own 400 and answers 500 with that exception's text.
      With `rethrowHttp` true, an HTTP exception passes through unchanged. */
  function Serve(req: ImageRequest, accelHeld: bool, rethrowHttp: bool): Served {
    match req.decodeFault
    case Some(m) => Served(HttpError(500, m), accelHeld)
    case None =>
      match Dispatch(req.methodName)
      case None =>
        if rethrowHttp then Served(HttpError(400, InvalidMethod), accelHeld)
        else Served(HttpError(500, HttpExceptionText(400, InvalidMethod)), accelHeld)
      case Some(b) =>
        match req.backendFault
        case Some(m) => Served(HttpError(500, m), if b == Inspyrenet then true else accelHeld)
        case None =>
          var after := if b == Inspyrenet then false else accelHeld;
          match req.encodeFault
          case Some(m) => Served(HttpError(500, m), after)
          case None => Served(PngImage(b), after)
  }

  /** The endpoint as written. */
  function RemoveBackground(req: ImageRequest, accelHeld: bool): (r: Served)
    ensures r.response.PngImage? <==>
      req.decodeFault.None? && req.methodName in Methods && req.backendFault.None? && req.encodeFault.None?
    ensures r.response.PngImage? ==> Some(r.response.backend) == Dispatch(req.methodName)
    ensures r.response.HttpError? ==> r.response.status == 500
    ensures req.methodName != AcceleratedMethod ==> r.accelHeld == accelHeld
    ensures req.methodName == AcceleratedMethod && req.decodeFault.None? ==> (r.accelHeld <==> req.backendFault.Some?)
    ensures req.decodeFault.Some? ==> r == Served(HttpError(500, req.decodeFault.value), accelHeld)
    ensures req.decodeFault.None? && req.methodName in Methods && req.backendFault.Some? ==>
      r.response == HttpError(500, req.backendFault.value)
    ensures req.decodeFault.None? && req.methodName in Methods && req.backendFault.None? && req.encodeFault.Some? ==>
      r.response == HttpError(500, req.encodeFault.value)
  {
    Serve(req, accelHeld, false)
  }

  /** The endpoint with its 400 passed through. */
  function RemoveBackgroundIntended(req: ImageRequest, accelHeld: bool): (r: Served)
    ensures r.response.HttpError? && r.response.status == 400 <==> req.decodeFault.None? && req.methodName !in Methods
    ensures req.decodeFault.None? && req.methodName !in Methods ==> r.response.detail == InvalidMethod
    ensures req.decodeFault.None? && req.methodName in Methods ==> r == RemoveBackground(req, accelHeld)
  {
    Serve(req, accelHeld, true)
  }

  lemma BadRequestText()
    ensures HttpExceptionText(400, InvalidMethod) == "400: Invalid method"
  {
    assert DigitChar(4) == '4' && DigitChar(0) == '0';
    assert FixedWidth(4, 1) == "4";
    assert FixedWidth(40, 2) == "40";
    assert FixedWidth(400, 3) == "400";
    assert NumDigits(400) == 3;
  }

  /** As written, an unknown method never gets its 400: the client sees a 500 whose detail
      is the text of the 400. */
  lemma InvalidMethodBecomes500(req: ImageRequest, accelHeld: bool)
    requires req.decodeFault.None? && req.methodName !in Methods
    ensures RemoveBackground(req, accelHeld).response == HttpError(500, "400: Invalid method")
  {
    BadRequestText();
  }

  /** With the 400 passed through, an unknown method is answered 400 "Invalid method", and
      every other request is answered as before. */
  lemma IntendedInvalidMethodIs400(req: ImageRequest, accelHeld: bool)
    ensures req.decodeFault.None? && req.methodName !in Methods ==>
      RemoveBackgroundIntended(req, accelHeld).response == HttpError(400, InvalidMethod)
    ensures !(req.decodeFault.None? && req.methodName !in Methods) ==>
      RemoveBackgroundIntended(req, accelHeld) == RemoveBackground(req, accelHeld)
  {
  }

  /** A failure inside the InSPyReNet call skips the move back to the host: the single-image
      endpoint leaves the model on the accelerator. */
  lemma SingleImageBackendFailureKeepsAccelerator(req: ImageRequest, accelHeld: bool)
    requires req.decodeFault.None? && req.methodName == AcceleratedMethod && req.backendFault.Some?
    ensures RemoveBackground(req, accelHeld).accelHeld
    ensures RemoveBackground(req, accelHeld).response == HttpError(500, req.backendFault.value)
  {
  }

  /** Saving the result as PNG happens after the model is moved back: a failure there
      answers 500 but leaves the model on the host. */
  lemma SingleImageEncodeFailureReleasesAccelerator(req: ImageRequest, accelHeld: bool)
    requires req.decodeFault.None? && req.methodName == AcceleratedMethod && req.backendFault.None? && req.encodeFault.Some?
    ensures !RemoveBackground(req, accelHeld).accelHeld
    ensures RemoveBackground(req, accelHeld).response == HttpError(500, req.encodeFault.value)
  {
  }

  /** A successful InSPyReNet call returns the model to the host. */
  lemma SingleImageSuccessReleasesAccelerator(req: ImageRequest, accelHeld: bool)
    requires req.decodeFault.None? && req.methodName == AcceleratedMethod && req.backendFault.None? && req.encodeFault.None?
    ensures !RemoveBackground(req, accelHeld).accelHeld
    ensures RemoveBackground(req, accelHeld).response == PngImage(Inspyrenet)
  {
  }
}

=== FILE: janitor.dfy ===
/** One pass of the background janitor over the top level of `temp_videos`: every item
    whose modification time is more than ten minutes before the pass started is deleted, a
    file with `os.remove`, a directory with everything under it. Times are counted in
    microseconds, the resolution of the timestamps being compared. */
module Janitor {

  /** Ten minutes, in microseconds. */
  const MaxAge := 600_000_000

  /** What `os.path.isfile` / `os.path.isdir` say about an item. */
  datatype Kind = RegularFile | Directory | OtherKind

  datatype Entry = Entry(mtime: int, kind: Kind)

  /** The top-level items of the directory as they are when the janitor examines them. */
  type Tree = map<string, Entry>

  /** The age test: strictly more than ten minutes old at `now`. */
  predicate Expired(e: Entry, now: int) {
    now - e.mtime > MaxAge
  }

  /** Expired, and a file or a directory (anything else is left alone). */
  predicate Reclaimable(e: Entry, now: int) {
    Expired(e, now) && e.kind != OtherKind
  }

  /** The outcome of a pass: it ran to the end, or `getmtime` raised on a listed item that
      no longer exists, ending the pass (and the janitor task) there. */
  datatype SweepResult = Swept(remaining: Tree) | Crashed(remaining: Tree, vanished: string)

  predicate Distinct(names: seq<string>) {
    forall i, j :: 0 <= i < j < |names| ==> names[i] != names[j]
  }

  /** One pass over `names` (the listing taken at the start of the pass) with the clock read
      once as `now`. */
  function Sweep(tree: Tree, names: seq<string>, now: int): (r: SweepResult)
    ensures r.remaining.Keys <= tree.Keys
    ensures forall k :: k in r.remaining ==> r.remaining[k] == tree[k]
    ensures forall k :: k in tree && k !in names ==> k in r.remaining
    ensures forall k :: k in tree && !Reclaimable(tree[k], now) ==> k in r.remaining
    ensures r.Swept? ==> forall k :: k in tree && k in names && Reclaimable(tree[k], now) ==> k !in r.remaining
    ensures r.Crashed? ==> r.vanished in names && r.vanished !in r.remaining
    decreases |names|
  {
    if |names| == 0 then Swept(tree)
    else
      var name := names[0];
      assert forall k :: k in names <==> k == name || k in names[1..] by {
        assert names == [name] + names[1..];
      }
      if name !in tree then Crashed(tree, name)
      else if Reclaimable(tree[name], now) then Sweep(tree - {name}, names[1..], now)
      else Sweep(tree, names[1..], now)
  }

  /** Reference definition: what survives a pass over `names` at `now`. */
  function Survivors(tree: Tree, names: seq<string>, now: int): Tree {
    map k | k in tree && !(k in names && Reclaimable(tree[k], now)) :: tree[k]
  }

  /** When nothing listed has vanished, a pass deletes exactly the listed items older than
      ten minutes that are files or directories. */
  lemma {:induction false} SweepDeletesExactlyExpired(tree: Tree, names: seq<string>, now: int)
    requires Distinct(names)
    requires forall k :: k in names ==> k in tree
    ensures Sweep(tree, names, now) == Swept(Survivors(tree, names, now))
    decreases |names|
  {
    if |names| == 0 {
      assert Survivors(tree, names, now) == tree;
    } else {
      var name := names[0];
      var rest := names[1..];
      assert forall k :: k in names <==> k == name || k in rest by {
        assert names == [name] + rest;
      }
      assert Distinct(rest) by {
        forall i, j | 0 <= i < j < |rest|
          ensures rest[i] != rest[j]
        {
          assert rest[i] == names[i + 1] && rest[j] == names[j + 1];
        }
      }
      if Reclaimable(tree[name], now) {
        SweepDeletesExactlyExpired(tree - {name}, rest, now);
        assert Survivors(tree - {name}, rest, now) == Survivors(tree, names, now);
      } else {
        SweepDeletesExactlyExpired(tree, rest, now);
        assert Survivors(tree, rest, now) == Survivors(tree, names, now);
      }
    }
  }

  /** An item exactly ten minutes old is kept; one a microsecond older is deleted. */
  lemma BoundaryKept(now: int, kind: Kind)
    ensures !Expired(Entry(now - MaxAge, kind), now)
    ensures Expired(Entry(now - MaxAge - 1, kind), now)
  {
  }

  /** A second pass at the same instant over what the first left deletes nothing, provided
      the first pass listed everything. */
  lemma SweepIdempotent(tree: Tree, names: seq<string>, again: seq<string>, now: int)
    requires Distinct(names) && (forall k :: k in names <==> k in tree)
    requires Distinct(again) && (forall k :: k in again <==> k in Survivors(tree, names, now))
    ensures Sweep(Survivors(tree, names, now), again, now) == Swept(Survivors(tree, names, now))
  {
    var left := Survivors(tree, names, now);
    SweepDeletesExactlyExpired(left, again, now);
    assert Survivors(left, again, now) == left;
  }

  /** A listed item that has vanished by the time the janitor reaches it ends the pass: the
      items after it are not examined, whatever their age. */
  lemma {:induction false} SweepCrashesOnVanished(tree: Tree, names: seq<string>, now: int, i: nat)
    requires Distinct(names)
    requires i < |names| && names[i] !in tree
    requires forall k :: 0 <= k < i ==> names[k] in tree
    ensures Sweep(tree, names, now) == Crashed(Survivors(tree, names[..i], now), names[i])
    decreases i
  {
    var name := names[0];
    var rest := names[1..];
    assert Distinct(rest) by {
      forall a, b | 0 <= a < b < |rest|
        ensures rest[a] != rest[b]
      {
        assert rest[a] == names[a + 1] && rest[b] == names[b + 1];
      }
    }
    if i == 0 {
      assert Survivors(tree, names[..0], now) == tree;
    } else {
      assert names[..i] == [name] + rest[..i - 1];
      assert forall k :: k in names[..i] <==> k == name || k in rest[..i - 1];
      if Reclaimable(tree[name], now) {
        SweepCrashesOnVanished(tree - {name}, rest, now, i - 1);
        assert Survivors(tree - {name}, rest[..i - 1], now) == Survivors(tree, names[..i], now);
      } else {
        SweepCrashesOnVanished(tree, rest, now, i - 1);
        assert Survivors(tree, rest[..i - 1], now) == Survivors(tree, names[..i], now);
      }
    }
  }
}

=== FILE: job_properties.dfy ===
/** What `process_video` promises, stated over the pure model of it: how each stage's
    failure ends the job, when the job completes, how progress moves, that frames are
    visited in temporal order, and what the job leaves behind in the world. */
module JobProperties {
  import opened Wrappers
  import opened Text
  import opened Sorting
  import opened Naming
  import opened Backends
  import opened Status
  import opened Orchestrator

  // ---------------------------------------------------------------------------
  // Independent descriptions of how far a job gets.
  // ---------------------------------------------------------------------------

  predicate ProbeOk(job: Job) {
    job.probe.Ran? && job.probe.exitCode == 0
  }

  /** The frame count the probe reports, if its output parses as an integer. */
  function Count(job: Job): Option<int>
    requires ProbeOk(job)
  {
    PyInt(Strip(job.probe.stdout))
  }

  /** The job gets past the frame-count gate and assigns `frames_dir`. */
  predicate ReachesFramesDir(job: Job) {
    ProbeOk(job) && Count(job).Some? && Count(job).value <= MaxFrames
  }

  /** The job returns before `frames_dir` is assigned: a failed probe or a too long video. */
  predicate EarlyReturn(job: Job) {
    job.probe.Ran? && (job.probe.exitCode != 0 || (Count(job).Some? && Count(job).value > MaxFrames))
  }

  /** The extraction ran and exited 0. */
  predicate ExtractOk(job: Job) {
    ReachesFramesDir(job) && job.extract.Ran? && job.extract.exitCode == 0
  }

  /** The probe, the gate, the extraction and every frame succeed. */
  predicate TransformsAll(job: Job) {
    && ExtractOk(job)
    && |PngOnly(job.extracted)| > 0
    && job.methodName in Methods
    && (forall f :: f in PngOnly(job.extracted) ==> f !in job.faults)
  }

  /** Every stage succeeds: the probe, the gate, the extraction, every frame, the encoding. */
  predicate Completes(job: Job) {
    && ExtractOk(job)
    && |PngOnly(job.extracted)| > 0
    && job.methodName in Methods
    && (forall f :: f in PngOnly(job.extracted) ==> f !in job.faults)
    && job.encode.Ran? && job.encode.exitCode == 0
  }

  /** The records of the first `done` frames of a `total`-frame job. */
  function FrameWrites(done: nat, total: nat): (r: seq<Record>)
    requires done <= total
    ensures |r| == done
  {
    seq(done, k requires 0 <= k < done => FrameDone(FrameProgress(k, total)))
  }

  /** The last element of a non-empty sequence. */
  function Last<T>(s: seq<T>): T
    requires |s| > 0
  {
    s[|s| - 1]
  }

  // ---------------------------------------------------------------------------
  // Progress.
  // ---------------------------------------------------------------------------

  /** Among the writes that carry a progress, no later one is below an earlier one. */
  predicate Monotone(ws: seq<Record>) {
    forall i, j :: 0 <= i < j < |ws| && ws[i].progress.Some? && ws[j].progress.Some? ==>
      ws[i].progress.value <= ws[j].progress.value
  }

  predicate ProgressAtMost(ws: seq<Record>, m: real) {
    forall i :: 0 <= i < |ws| && ws[i].progress.Some? ==> ws[i].progress.value <= m
  }

  predicate ProgressAtLeast(ws: seq<Record>, m: real) {
    forall i :: 0 <= i < |ws| && ws[i].progress.Some? ==> m <= ws[i].progress.value
  }

  lemma MonotoneAppend(a: seq<Record>, b: seq<Record>, m: real)
    requires Monotone(a) && Monotone(b)
    requires ProgressAtMost(a, m) && ProgressAtLeast(b, m)
    ensures Monotone(a + b)
  {
    forall i, j | 0 <= i < j < |a + b| && (a + b)[i].progress.Some? && (a + b)[j].progress.Some?
      ensures (a + b)[i].progress.value <= (a + b)[j].progress.value
    {
      if i < |a| && j >= |a| {
        assert (a + b)[j] == b[j - |a|];
      } else if i >= |a| {
        assert (a + b)[i] == b[i - |a|] && (a + b)[j] == b[j - |a|];
      }
    }
  }

  /** The progress after frame `i` of `n` lies in (0, 100] and is 100 exactly at the last
      frame. */
  lemma FrameProgressBounds(i: nat, n: nat)
    requires i < n
    ensures 0.0 < FrameProgress(i, n) <= 100.0
    ensures FrameProgress(i, n) == 100.0 <==> i == n - 1
  {
    var q := (i + 1) as real / n as real;
    assert q * n as real == (i + 1) as real;
    if i == n - 1 {
      assert q == 1.0;
    } else {
      assert q < 1.0;
    }
  }

  /** Progress strictly grows from frame to frame. */
  lemma FrameProgressIncreasing(i: nat, j: nat, n: nat)
    requires i < j < n
    ensures FrameProgress(i, n) < FrameProgress(j, n)
  {
    var p := (i + 1) as real / n as real;
    var q := (j + 1) as real / n as real;
    assert p * n as real == (i + 1) as real;
    assert q * n as real == (j + 1) as real;
    assert p < q;
  }

  /** Writes as the status endpoint expects them: each of one of the three shapes, the
      progress never going down, and never above `m`. */
  predicate Orderly(ws: seq<Record>, m: real) {
    && (forall k :: 0 <= k < |ws| ==> WellFormed(ws[k]))
    && Monotone(ws)
    && ProgressAtMost(ws, m)
  }

  lemma OrderlyAppend(a: seq<Record>, b: seq<Record>, m: real, m': real)
    requires Orderly(a, m) && Orderly(b, m') && ProgressAtLeast(b, m) && m <= m'
    ensures Orderly(a + b, m')
  {
    MonotoneAppend(a, b, m);
    forall k | 0 <= k < |a + b|
      ensures WellFormed((a + b)[k])
      ensures (a + b)[k].progress.Some? ==> (a + b)[k].progress.value <= m'
    {
      if k >= |a| {
        assert (a + b)[k] == b[k - |a|];
      }
    }
  }

  lemma FrameWritesOrderly(ws: seq<Record>, n: nat)
    requires |ws| <= n
    requires forall k :: 0 <= k < |ws| ==> ws[k] == FrameDone(FrameProgress(k, n))
    ensures Orderly(ws, 100.0) && ProgressAtLeast(ws, 0.0)
  {
    forall i, j | 0 <= i < j < |ws|
      ensures ws[i].progress.value <= ws[j].progress.value
    {
      FrameProgressIncreasing(i, j, n);
    }
    forall k | 0 <= k < |ws|
      ensures 0.0 < ws[k].progress.value <= 100.0
    {
      FrameProgressBounds(k, n);
    }
  }

  lemma EncodeStageOrderly(job: Job, w: seq<Record>, e: seq<Effect>)
    requires Orderly(w, 100.0)
    ensures Orderly(EncodeStage(job, w, e).writes, 100.0)
  {
    var w1 := w + [Progressing(100.0, EncodingVideo)];
    OrderlyAppend(w, [Progressing(100.0, EncodingVideo)], 100.0, 100.0);
    OrderlyAppend(w1, [Failed(EncodeError)], 100.0, 100.0);
    OrderlyAppend(w1, [Done(OutputPath(job.id))], 100.0, 100.0);
  }

  lemma TransformStageOrderly(job: Job, w: seq<Record>, e: seq<Effect>)
    requires Orderly(w, 0.0)
    ensures Orderly(TransformStage(job, w, e).writes, 100.0)
  {
    var w1 := w + [Progressing(0.0, RemovingBackground)];
    OrderlyAppend(w, [Progressing(0.0, RemovingBackground)], 0.0, 0.0);
    var frames := FrameFiles(job);
    if |frames| == 0 {
      OrderlyAppend(w1, [Failed(NoFrames)], 0.0, 100.0);
    } else {
      var loop := FrameLoop(job.methodName, job.faults, frames, 0);
      FrameWritesOrderly(loop.writes, |frames|);
      OrderlyAppend(w1, loop.writes, 0.0, 100.0);
      if loop.error.None? {
        EncodeStageOrderly(job, w1 + loop.writes, e + loop.effects);
      }
    }
  }

  lemma ExtractStageOrderly(job: Job, w: seq<Record>, e: seq<Effect>)
    requires Orderly(w, 0.0)
    ensures Orderly(ExtractStage(job, w, e).writes, 100.0)
  {
    var w1 := w + [Progressing(0.0, ExtractingFrames)];
    OrderlyAppend(w, [Progressing(0.0, ExtractingFrames)], 0.0, 0.0);
    OrderlyAppend(w1, [Failed(ExtractError)], 0.0, 100.0);
    if job.extract.Ran? && job.extract.exitCode == 0 {
      TransformStageOrderly(job, w1, e + [MakeFramesDir] + [Extract(job.extracted)]);
    }
  }

  /** Every record a job writes has one of the three shapes the status endpoint expects,
      every progress lies in [0, 100], and the progress never goes down: 0 while
      initialising, extracting and starting the frames, then after each frame its share of
      the frames, then 100 while encoding. */
  lemma ProgressNeverDecreases(job: Job)
    ensures forall k :: 0 <= k < |ProcessVideo(job).writes| ==> WellFormed(ProcessVideo(job).writes[k])
    ensures Monotone(ProcessVideo(job).writes)
    ensures ProgressAtLeast(ProcessVideo(job).writes, 0.0) && ProgressAtMost(ProcessVideo(job).writes, 100.0)
  {
    TryBlockOrderly(job);
    var t := TryBlock(job);
    if t.exit.Threw? {
      OrderlyAppend(t.writes, [Failed(t.exit.message)], 100.0, 100.0);
      assert ProcessVideo(job).writes == t.writes + [Failed(t.exit.message)];
    } else {
      assert ProcessVideo(job).writes == t.writes;
    }
  }

  lemma TryBlockOrderly(job: Job)
    ensures Orderly(TryBlock(job).writes, 100.0)
  {
    var w0 := [Progressing(0.0, Initializing)];
    assert Orderly(w0, 0.0);
    OrderlyAppend(w0, [Failed(CountError)], 0.0, 100.0);
    OrderlyAppend(w0, [Failed(TooLong)], 0.0, 100.0);
    ExtractStageOrderly(job, w0, [Probe]);
  }

  // ---------------------------------------------------------------------------
  // How each stage ends the job.
  // ---------------------------------------------------------------------------

  /** A probe exiting non-zero ends the job with "Error counting frames"; nothing after the
      probe runs, and the unassigned `frames_dir` makes the clean-up raise. */
  lemma ProbeFailureEndsJob(job: Job)
    requires job.probe.Ran? && job.probe.exitCode != 0
    ensures ProcessVideo(job) ==
      Outcome([Progressing(0.0, Initializing), Failed(CountError)], Acquire(job.methodName) + [Probe], true)
  {
  }

  /** More than 250 frames ends the job with "Video too long (max 250 frames)": no frames
      directory, no extraction. */
  lemma TooLongRejected(job: Job)
    requires ProbeOk(job) && Count(job).Some? && Count(job).value > MaxFrames
    ensures ProcessVideo(job) ==
      Outcome([Progressing(0.0, Initializing), Failed(TooLong)], Acquire(job.methodName) + [Probe], true)
  {
  }

  /** A probe printing its count the usual way, as a decimal numeral and a newline, is read
      back as that count: at most 250 frames (250 included) go on to the frames directory
      and the extraction, more are turned away. */
  lemma PrintedCountGate(job: Job, n: int)
    requires job.probe == Ran(0, Decimal(n) + "\n")
    ensures ProbeOk(job) && Count(job) == Some(n)
    ensures ReachesFramesDir(job) <==> n <= MaxFrames
    ensures EarlyReturn(job) <==> n > MaxFrames
  {
    ParseDecimalLine(n);
  }

  /** Output the count cannot be parsed from raises in `int()`: the job ends with Python's
      error text, the except handler releases the accelerator, and the clean-up raises. */
  lemma UnparsableCountFails(job: Job)
    requires ProbeOk(job) && Count(job).None?
    ensures ProcessVideo(job) ==
      Outcome([Progressing(0.0, Initializing), Failed(IntErrorMessage(Strip(job.probe.stdout)))],
              Acquire(job.methodName) + [Probe] + Release(job.methodName), true)
  {
  }

  /** A probe that succeeds but prints only whitespace (a file without a video stream) does
      not read as zero frames: `int('')` raises and the job ends with its error text. */
  lemma BlankCountFails(job: Job)
    requires ProbeOk(job) && AllSpace(job.probe.stdout)
    ensures ProcessVideo(job) ==
      Outcome([Progressing(0.0, Initializing), Failed(IntErrorMessage(""))],
              Acquire(job.methodName) + [Probe] + Release(job.methodName), true)
  {
    assert Strip(job.probe.stdout) == "";
    assert Strip("") == "";
    UnparsableCountFails(job);
  }

  /** An extractor exiting non-zero ends the job with "Error extracting frames"; the frames
      it did write are removed with the directory. */
  lemma ExtractFailureEndsJob(job: Job)
    requires ReachesFramesDir(job) && job.extract.Ran? && job.extract.exitCode != 0
    ensures ProcessVideo(job) ==
      Outcome([Progressing(0.0, Initializing), Progressing(0.0, ExtractingFrames), Failed(ExtractError)],
              Acquire(job.methodName) + [Probe, MakeFramesDir, Extract(job.extracted)]
                + RemoveAll(job.extracted) + [RemoveFramesDir] + Release(job.methodName), false)
  {
  }

  /** An extraction leaving no `.png` file ends the job with "No frames were extracted from
      the video", before any backend is chosen. */
  lemma NoFramesEndsJob(job: Job)
    requires ExtractOk(job) && |PngOnly(job.extracted)| == 0
    ensures ProcessVideo(job) ==
      Outcome([Progressing(0.0, Initializing), Progressing(0.0, ExtractingFrames),
               Progressing(0.0, RemovingBackground), Failed(NoFrames)],
              Acquire(job.methodName) + [Probe, MakeFramesDir, Extract(job.extracted)]
                + RemoveAll(job.extracted) + [RemoveFramesDir] + Release(job.methodName), false)
  {
  }

  /** An unknown method is noticed only at the first frame: the probe and the extraction
      have run and the first frame has been read, but no backend is called and no progress
      is written. */
  lemma UnknownMethodDetectedLate(job: Job)
    requires ExtractOk(job) && |PngOnly(job.extracted)| > 0
    requires job.methodName !in Methods
    requires var first := FrameFiles(job)[0]; !(first in job.faults && job.faults[first].ReadRaises?)
    ensures ProcessVideo(job) ==
      Outcome([Progressing(0.0, Initializing), Progressing(0.0, ExtractingFrames),
               Progressing(0.0, RemovingBackground), Failed(InvalidMethod)],
              [Probe, MakeFramesDir, Extract(job.extracted), ReadFrame(FrameFiles(job)[0])]
                + RemoveAll(job.extracted) + [RemoveFramesDir], false)
  {
    var frames := FrameFiles(job);
    SortKeepsMembers(PngOnly(job.extracted));
    ReachesTransform(job);
    var w := [Progressing(0.0, Initializing), Progressing(0.0, ExtractingFrames)] + [Progressing(0.0, RemovingBackground)];
    var e := [Probe, MakeFramesDir, Extract(job.extracted)];
    assert FrameLoop(job.methodName, job.faults, frames, 0) == LoopTrail([], [ReadFrame(frames[0])], Some(InvalidMethod));
    assert TryBlock(job) == Trail(w + [], e + [ReadFrame(frames[0])], true, job.extracted, Threw(InvalidMethod));
    assert Acquire(job.methodName) == [] && Release(job.methodName) == [];
  }

  lemma SortKeepsMembers(s: seq<string>)
    ensures |Sort(s)| == |s|
    ensures forall f :: f in Sort(s) <==> f in s
  {
    assert |multiset(Sort(s))| == |multiset(s)|;
    forall f
      ensures f in Sort(s) <==> f in s
    {
      assert f in Sort(s) <==> f in multiset(Sort(s));
      assert f in s <==> f in multiset(s);
    }
  }

  /** The loop gets through every frame exactly when the method is known and no frame
      faults. */
  lemma LoopSucceedsIff(job: Job)
    requires |PngOnly(job.extracted)| > 0
    ensures FrameLoop(job.methodName, job.faults, FrameFiles(job), 0).error.None? <==>
      job.methodName in Methods && forall f :: f in PngOnly(job.extracted) ==> f !in job.faults
  {
    var frames := FrameFiles(job);
    SortKeepsMembers(PngOnly(job.extracted));
    assert (forall k :: 0 <= k < |frames| ==> frames[k] !in job.faults) <==>
      (forall f :: f in frames ==> f !in job.faults);
  }

  /** An encoder exiting non-zero ends the job with "Error creating output video", after
      every frame has been transformed. */
  lemma EncodeFailureEndsJob(job: Job)
    requires ExtractOk(job) && |PngOnly(job.extracted)| > 0
    requires job.methodName in Methods && forall f :: f in PngOnly(job.extracted) ==> f !in job.faults
    requires job.encode.Ran? && job.encode.exitCode != 0
    ensures Last(ProcessVideo(job).writes) == Failed(EncodeError)
    ensures !ProcessVideo(job).escaped
  {
    LoopSucceedsIff(job);
  }

  /** A probe that cannot be started ends the job with the exception's text; the except
      handler releases the accelerator and the clean-up raises. */
  lemma ProbeRaisedEndsJob(job: Job)
    requires job.probe.Raised?
    ensures ProcessVideo(job) ==
      Outcome([Progressing(0.0, Initializing), Failed(job.probe.error)],
              Acquire(job.methodName) + [Probe] + Release(job.methodName), true)
  {
  }

  /** An extractor that cannot be started ends the job with the exception's text; the
      (empty) frames directory is removed and the accelerator released twice, by the except
      handler and by the clean-up. */
  lemma ExtractRaisedEndsJob(job: Job)
    requires ReachesFramesDir(job) && job.extract.Raised?
    ensures ProcessVideo(job) ==
      Outcome([Progressing(0.0, Initializing), Progressing(0.0, ExtractingFrames), Failed(job.extract.error)],
              Acquire(job.methodName) + [Probe, MakeFramesDir, Extract([])] + Release(job.methodName)
                + [RemoveFramesDir] + Release(job.methodName), false)
  {
    var w := [Progressing(0.0, Initializing)];
    var e := [Probe];
    assert TryBlock(job) == ExtractStage(job, w, e);
    assert TryBlock(job) == Trail(w + [Progressing(0.0, ExtractingFrames)], e + [MakeFramesDir] + [Extract([])], true, [], Threw(job.extract.error));
    assert RemoveAll([]) == [];
  }

  /** Under a known method, the first frame in visiting order that faults ends the job with
      that frame's exception: the records of the frames before it are written, those frames
      are transformed, the encoder never runs, and the frames directory is cleaned up. */
  lemma FrameFaultEndsJob(job: Job)
    requires ExtractOk(job) && job.methodName in Methods
    requires FirstFault(FrameFiles(job), job.faults, 0) < |FrameFiles(job)|
    ensures var frames := FrameFiles(job); var j := FirstFault(frames, job.faults, 0);
      var b := Dispatch(job.methodName).value;
      ProcessVideo(job) == Outcome(
        [Progressing(0.0, Initializing), Progressing(0.0, ExtractingFrames), Progressing(0.0, RemovingBackground)]
          + FrameWrites(j, |frames|) + [Failed(job.faults[frames[j]].message)],
        Acquire(job.methodName) + [Probe, MakeFramesDir, Extract(job.extracted)]
          + Transforms(frames[..j], b) + FaultEffects(frames[j], job.faults[frames[j]], b)
          + Release(job.methodName) + RemoveAll(job.extracted) + [RemoveFramesDir] + Release(job.methodName),
        false)
  {
    var frames := FrameFiles(job);
    var j := FirstFault(frames, job.faults, 0);
    var m := job.faults[frames[j]].message;
    var b := Dispatch(job.methodName).value;
    FrameFaultTry(job);
    var t := TryBlock(job);
    var acq, rel, tidy := Acquire(job.methodName), Release(job.methodName), RemoveAll(job.extracted) + [RemoveFramesDir];
    var pre, run, stop := [Probe, MakeFramesDir, Extract(job.extracted)], Transforms(frames[..j], b), FaultEffects(frames[j], job.faults[frames[j]], b);
    ThrewAfterFramesDir(job);
    assert t.effects == pre + run + stop;
    Regroup(acq, pre, run, stop, rel, RemoveAll(job.extracted), RemoveFramesDir);
    assert t.writes + [Failed(m)] == [Progressing(0.0, Initializing), Progressing(0.0, ExtractingFrames), Progressing(0.0, RemovingBackground)]
      + FrameWrites(j, |frames|) + [Failed(m)];
  }

  /** Regroups a long concatenation of effects, so that the job lemmas prove sequence
      equalities over a few abstract parts and stay within the resource limit. */
  lemma Regroup(acq: seq<Effect>, pre: seq<Effect>, run: seq<Effect>, stop: seq<Effect>, rel: seq<Effect>, rm: seq<Effect>, last: Effect)
    ensures acq + (pre + run + stop) + rel + (rm + [last]) + rel == acq + pre + run + stop + rel + rm + [last] + rel
  {
  }

  /** Once `frames_dir` is bound, an exception in the try block is recorded, the except
      handler releases the accelerator, and the clean-up runs to its end. */
  lemma ThrewAfterFramesDir(job: Job)
    requires TryBlock(job).framesDirBound && TryBlock(job).exit.Threw?
    ensures var t := TryBlock(job);
      ProcessVideo(job) == Outcome(t.writes + [Failed(t.exit.message)],
        Acquire(job.methodName) + t.effects + Release(job.methodName)
          + (RemoveAll(t.listing) + [RemoveFramesDir]) + Release(job.methodName), false)
  {
  }

  /** The try block of a job stopped by a faulting frame. */
  lemma FrameFaultTry(job: Job)
    requires ExtractOk(job) && job.methodName in Methods
    requires FirstFault(FrameFiles(job), job.faults, 0) < |FrameFiles(job)|
    ensures var frames := FrameFiles(job); var j := FirstFault(frames, job.faults, 0);
      var b := Dispatch(job.methodName).value;
      TryBlock(job) == Trail(
        [Progressing(0.0, Initializing), Progressing(0.0, ExtractingFrames), Progressing(0.0, RemovingBackground)]
          + FrameWrites(j, |frames|),
        [Probe, MakeFramesDir, Extract(job.extracted)] + Transforms(frames[..j], b) + FaultEffects(frames[j], job.faults[frames[j]], b),
        true, job.extracted, Threw(job.faults[frames[j]].message))
  {
    var frames := FrameFiles(job);
    var j := FirstFault(frames, job.faults, 0);
    ReachesTransform(job);
    LoopWritesBeforeFirstFault(job.methodName, job.faults, frames, 0);
    LoopStopsAtFirstFault(job.methodName, job.faults, frames, 0);
    var loop := FrameLoop(job.methodName, job.faults, frames, 0);
    assert loop.writes == FrameWrites(j, |frames|);
    assert frames[0..j] == frames[..j];
    var w := [Progressing(0.0, Initializing), Progressing(0.0, ExtractingFrames)];
    var e := [Probe, MakeFramesDir, Extract(job.extracted)];
    assert w + [Progressing(0.0, RemovingBackground)] == [Progressing(0.0, Initializing), Progressing(0.0, ExtractingFrames), Progressing(0.0, RemovingBackground)];
  }

  /** An encoder that cannot be started, after every frame went through, ends the job with
      the exception's text; nothing escapes. */
  lemma EncodeRaisedEndsJob(job: Job)
    requires TransformsAll(job) && job.encode.Raised?
    ensures var n := |FrameFiles(job)|;
      ProcessVideo(job).writes ==
        [Progressing(0.0, Initializing), Progressing(0.0, ExtractingFrames), Progressing(0.0, RemovingBackground)]
          + FrameWrites(n, n) + [Progressing(100.0, EncodingVideo), Failed(job.encode.error)]
    ensures !ProcessVideo(job).escaped
  {
    var frames := FrameFiles(job);
    CompletedLoop(job);
    ReachesTransform(job);
    var loop := FrameLoop(job.methodName, job.faults, frames, 0);
    var w := [Progressing(0.0, Initializing), Progressing(0.0, ExtractingFrames)];
    var w1 := w + [Progressing(0.0, RemovingBackground)];
    var e := [Probe, MakeFramesDir, Extract(job.extracted)];
    assert TryBlock(job) == EncodeStage(job, w1 + loop.writes, e + loop.effects);
    assert TryBlock(job).writes == w1 + loop.writes + [Progressing(100.0, EncodingVideo)];
    assert TryBlock(job).exit == Threw(job.encode.error);
  }

  /** The job ends `completed` exactly when every stage succeeds, and then the record points
      at the output file named after the job. */
  lemma CompletedIff(job: Job)
    ensures |ProcessVideo(job).writes| > 0
    ensures Last(ProcessVideo(job).writes).status == Completed <==> Completes(job)
    ensures Completes(job) ==> Last(ProcessVideo(job).writes) == Done(OutputPath(job.id))
  {
    if Completes(job) {
      CompletedTrace(job);
    } else if ExtractOk(job) {
      ReachesTransform(job);
      SortKeepsMembers(PngOnly(job.extracted));
      if |PngOnly(job.extracted)| > 0 {
        LoopSucceedsIff(job);
      }
    }
  }

  /** Once the extraction succeeds, the try block goes on to the per-frame stage. */
  lemma ReachesTransform(job: Job)
    requires ExtractOk(job)
    ensures TryBlock(job) == TransformStage(job,
      [Progressing(0.0, Initializing), Progressing(0.0, ExtractingFrames)],
      [Probe, MakeFramesDir, Extract(job.extracted)])
  {
    var w := [Progressing(0.0, Initializing)];
    var e := [Probe];
    assert TryBlock(job) == ExtractStage(job, w, e);
    assert w + [Progressing(0.0, ExtractingFrames)] == [Progressing(0.0, Initializing), Progressing(0.0, ExtractingFrames)];
    assert e + [MakeFramesDir] + [Extract(job.extracted)] == [Probe, MakeFramesDir, Extract(job.extracted)];
  }

  /** A completed job's full history: its writes are the three starting records, one record
      per frame with progress (k+1)/n*100, the encoding record and the completed record; its
      effects run every stage once, transform the frames in sorted order, and clean up. */
  lemma CompletedTrace(job: Job)
    requires Completes(job)
    ensures var frames := FrameFiles(job);
      ProcessVideo(job) == Outcome(
        [Progressing(0.0, Initializing), Progressing(0.0, ExtractingFrames), Progressing(0.0, RemovingBackground)]
          + FrameWrites(|frames|, |frames|) + [Progressing(100.0, EncodingVideo), Done(OutputPath(job.id))],
        Acquire(job.methodName) + [Probe, MakeFramesDir, Extract(job.extracted)]
          + Transforms(frames, Dispatch(job.methodName).value) + [Encode(OutputPath(job.id))]
          + RemoveAll(job.extracted) + [RemoveFramesDir] + Release(job.methodName),
        false)
  {
    var frames := FrameFiles(job);
    CompletedTry(job);
    ReturnedAfterFramesDir(job);
    RegroupReturned(Acquire(job.methodName), [Probe, MakeFramesDir, Extract(job.extracted)],
      Transforms(frames, Dispatch(job.methodName).value), [Encode(OutputPath(job.id))],
      RemoveAll(job.extracted), RemoveFramesDir, Release(job.methodName));
  }

  /** Once `frames_dir` is bound, a try block that returns is followed by the clean-up and
      nothing else. */
  lemma ReturnedAfterFramesDir(job: Job)
    requires TryBlock(job).framesDirBound && TryBlock(job).exit.Returned?
    ensures var t := TryBlock(job);
      ProcessVideo(job) == Outcome(t.writes,
        Acquire(job.methodName) + t.effects + [] + (RemoveAll(t.listing) + [RemoveFramesDir]) + Release(job.methodName), false)
  {
  }

  /** Regroups a long concatenation of effects, so that the job lemmas prove sequence
      equalities over a few abstract parts and stay within the resource limit. */
  lemma RegroupReturned(acq: seq<Effect>, pre: seq<Effect>, run: seq<Effect>, enc: seq<Effect>, rm: seq<Effect>, last: Effect, rel: seq<Effect>)
    ensures acq + (pre + run + enc) + [] + (rm + [last]) + rel == acq + pre + run + enc + rm + [last] + rel
  {
  }

  /** The frame loop of a job whose frames all go through visits every frame. */
  lemma CompletedLoop(job: Job)
    requires TransformsAll(job)
    ensures var frames := FrameFiles(job); var loop := FrameLoop(job.methodName, job.faults, frames, 0);
      && |frames| > 0 && loop.error.None?
      && loop.writes == FrameWrites(|frames|, |frames|)
      && loop.effects == Transforms(frames, Dispatch(job.methodName).value)
  {
    var frames := FrameFiles(job);
    SortKeepsMembers(PngOnly(job.extracted));
    LoopSucceedsIff(job);
    assert frames[0..] == frames;
  }

  /** Once every frame has gone through, the per-frame stage hands over to the encoding. */
  lemma TransformStageAllThrough(job: Job, w: seq<Record>, e: seq<Effect>)
    requires TransformsAll(job)
    ensures var frames := FrameFiles(job);
      TransformStage(job, w, e) == EncodeStage(job,
        w + [Progressing(0.0, RemovingBackground)] + FrameWrites(|frames|, |frames|),
        e + Transforms(frames, Dispatch(job.methodName).value))
  {
    CompletedLoop(job);
  }

  /** An encoder exiting 0 ends the try block with the completed record. */
  lemma EncodeStageSucceeds(job: Job, w: seq<Record>, e: seq<Effect>)
    requires job.encode.Ran? && job.encode.exitCode == 0
    ensures EncodeStage(job, w, e) == Trail(w + [Progressing(100.0, EncodingVideo), Done(OutputPath(job.id))],
      e + [Encode(OutputPath(job.id))], true, job.extracted, Returned)
  {
    assert w + [Progressing(100.0, EncodingVideo)] + [Done(OutputPath(job.id))]
      == w + [Progressing(100.0, EncodingVideo), Done(OutputPath(job.id))];
  }

  /** The try block of a job that completes. */
  lemma CompletedTry(job: Job)
    requires Completes(job)
    ensures var frames := FrameFiles(job);
      TryBlock(job) == Trail(
        [Progressing(0.0, Initializing), Progressing(0.0, ExtractingFrames), Progressing(0.0, RemovingBackground)]
          + FrameWrites(|frames|, |frames|) + [Progressing(100.0, EncodingVideo), Done(OutputPath(job.id))],
        [Probe, MakeFramesDir, Extract(job.extracted)]
          + Transforms(frames, Dispatch(job.methodName).value) + [Encode(OutputPath(job.id))],
        true, job.extracted, Returned)
  {
    var w := [Progressing(0.0, Initializing), Progressing(0.0, ExtractingFrames)];
    var e := [Probe, MakeFramesDir, Extract(job.extracted)];
    ReachesTransform(job);
    TransformStageAllThrough(job, w, e);
    var frames := FrameFiles(job);
    var w1 := w + [Progressing(0.0, RemovingBackground)] + FrameWrites(|frames|, |frames|);
    EncodeStageSucceeds(job, w1, e + Transforms(frames, Dispatch(job.methodName).value));
    assert w + [Progressing(0.0, RemovingBackground)] == [Progressing(0.0, Initializing), Progressing(0.0, ExtractingFrames), Progressing(0.0, RemovingBackground)];
  }

  /** When the extractor leaves frames 1..n (n below 100000) in any listing order, the
      frames are visited as frame_00001.png, frame_00002.png, ...: in temporal order. */
  lemma FramesVisitedInTemporalOrder(job: Job, n: nat)
    requires n < FrameNumberLimit
    requires multiset(PngOnly(job.extracted)) == multiset(Frames(n))
    ensures FrameFiles(job) == Frames(n)
  {
    ExtractedFramesInOrder(job.extracted, n);
  }

  // ---------------------------------------------------------------------------
  // What the job leaves behind.
  // ---------------------------------------------------------------------------

  lemma {:induction false} ReplayAppend(w: World, a: seq<Effect>, b: seq<Effect>)
    ensures Replay(w, a + b) == Replay(Replay(w, a), b)
    decreases |b|
  {
    if |b| == 0 {
      assert a + b == a;
    } else {
      assert (a + b)[..|a + b| - 1] == a + b[..|b| - 1];
      ReplayAppend(w, a, b[..|b| - 1]);
    }
  }

  lemma {:induction false} ReplayQuiet(w: World, effects: seq<Effect>)
    requires Quiet(effects)
    ensures Replay(w, effects) == w
    decreases |effects|
  {
    if |effects| > 0 {
      ReplayQuiet(w, effects[..|effects| - 1]);
    }
  }

  lemma {:induction false} ReplayRemoveAll(w: World, files: seq<string>)
    ensures Replay(w, RemoveAll(files)) == w.(frames := w.frames - set f | f in files)
    decreases |files|
  {
    if |files| > 0 {
      var init := files[..|files| - 1];
      assert RemoveAll(files)[..|files| - 1] == RemoveAll(init);
      ReplayRemoveAll(w, init);
      assert (set f | f in files) == (set f | f in init) + {files[|files| - 1]} by {
        assert files == init + [files[|files| - 1]];
      }
    }
  }

  lemma EncodeStageShape(job: Job, w: seq<Record>, e: seq<Effect>)
    ensures var r := EncodeStage(job, w, e);
      r.framesDirBound && r.listing == job.extracted && r.effects == e + [Encode(OutputPath(job.id))]
  {
  }

  lemma TransformStageShape(job: Job, w: seq<Record>, e: seq<Effect>)
    ensures var r := TransformStage(job, w, e);
      && r.framesDirBound && r.listing == job.extracted
      && |r.effects| >= |e| && r.effects[..|e|] == e && Quiet(r.effects[|e|..])
  {
    var frames := FrameFiles(job);
    var r := TransformStage(job, w, e);
    if |frames| == 0 {
      assert r.effects == e;
    } else {
      var loop := FrameLoop(job.methodName, job.faults, frames, 0);
      var w1 := w + [Progressing(0.0, RemovingBackground)];
      var tail := if loop.error.None? then loop.effects + [Encode(OutputPath(job.id))] else loop.effects;
      if loop.error.None? {
        EncodeStageShape(job, w1 + loop.writes, e + loop.effects);
      }
      assert r.effects == e + tail;
      assert r.effects[|e|..] == tail;
    }
  }

  lemma ExtractStageShape(job: Job, w: seq<Record>, e: seq<Effect>)
    ensures var r := ExtractStage(job, w, e);
      && r.framesDirBound
      && |r.effects| >= |e| + 2 && r.effects[..|e| + 2] == e + [MakeFramesDir, Extract(r.listing)]
      && Quiet(r.effects[|e| + 2..])
  {
    var r := ExtractStage(job, w, e);
    if job.extract.Ran? {
      var pre := e + [MakeFramesDir] + [Extract(job.extracted)];
      assert pre == e + [MakeFramesDir, Extract(job.extracted)];
      if job.extract.exitCode == 0 {
        TransformStageShape(job, w + [Progressing(0.0, ExtractingFrames)], pre);
        assert r.effects[..|e| + 2] == r.effects[..|pre|];
      } else {
        assert r.effects == pre;
      }
    } else {
      assert r.effects == e + [MakeFramesDir, Extract([])];
    }
  }

  /** The shape of the try block's effects: only the probe when `frames_dir` is never
      assigned; otherwise the probe, the directory, the extraction leaving `listing`, and
      then only frame reads, backend calls and the encoding. */
  lemma TrailShape(job: Job)
    ensures TryBlock(job).framesDirBound <==> ReachesFramesDir(job)
    ensures !TryBlock(job).framesDirBound ==> TryBlock(job).effects == [Probe]
    ensures !TryBlock(job).framesDirBound ==> (TryBlock(job).exit.Returned? <==> EarlyReturn(job))
    ensures TryBlock(job).framesDirBound ==>
      |TryBlock(job).effects| >= 3
      && TryBlock(job).effects[..3] == [Probe, MakeFramesDir, Extract(TryBlock(job).listing)]
      && Quiet(TryBlock(job).effects[3..])
  {
    ExtractStageShape(job, [Progressing(0.0, Initializing)], [Probe]);
  }

  lemma ReplayAcquire(w: World, methodName: string)
    ensures Replay(w, Acquire(methodName)) ==
      w.(accelHeld := if methodName == AcceleratedMethod then true else w.accelHeld)
  {
    if methodName == AcceleratedMethod {
      assert Acquire(methodName)[..0] == [];
    }
  }

  lemma ReplayRelease(w: World, methodName: string)
    ensures Replay(w, Release(methodName)) ==
      w.(accelHeld := if methodName == AcceleratedMethod then false else w.accelHeld)
  {
    if methodName == AcceleratedMethod {
      assert Release(methodName)[..0] == [];
    }
  }

  /** The try block leaves the accelerator alone; once `frames_dir` is assigned it creates
      the directory and the extracted files. */
  lemma ReplayTry(w: World, job: Job)
    ensures var t := TryBlock(job);
      Replay(w, t.effects) ==
        if t.framesDirBound then w.(dirExists := true, frames := w.frames + set f | f in t.listing) else w
  {
    var t := TryBlock(job);
    TrailShape(job);
    if t.framesDirBound {
      ReplayExtracted(w, t.effects, t.listing);
    } else {
      assert t.effects[..0] == [];
    }
  }

  lemma ReplayExtracted(w: World, effects: seq<Effect>, listing: seq<string>)
    requires |effects| >= 3 && effects[..3] == [Probe, MakeFramesDir, Extract(listing)]
    requires Quiet(effects[3..])
    ensures Replay(w, effects) == w.(dirExists := true, frames := w.frames + set f | f in listing)
  {
    var pre := [Probe, MakeFramesDir, Extract(listing)];
    assert effects == pre + effects[3..];
    ReplayAppend(w, pre, effects[3..]);
    assert pre[..2] == [Probe, MakeFramesDir];
    assert pre[..2][..1] == [Probe];
    assert pre[..2][..1][..0] == [];
    assert Replay(w, pre[..2][..1]) == w;
    assert Replay(w, pre[..2]) == w.(dirExists := true);
    ReplayQuiet(Replay(w, pre), effects[3..]);
  }

  /** The `finally` block's directory clean-up removes every listed file and the
      directory. */
  lemma ReplayTidy(w: World, listing: seq<string>)
    ensures Replay(w, RemoveAll(listing) + [RemoveFramesDir]) ==
      w.(dirExists := false, frames := w.frames - set f | f in listing)
  {
    ReplayAppend(w, RemoveAll(listing), [RemoveFramesDir]);
    ReplayRemoveAll(w, listing);
  }

  /** The accelerator's state once the job is over. */
  function AccelAfter(job: Job, cleanup: Cleanup, held: bool): bool {
    if job.methodName == AcceleratedMethod then cleanup == AsWritten && EarlyReturn(job) else held
  }

  /** Whatever happens, the job's frames directory and every file in it are gone at the
      end. With InSPyReNet the model ends on the host, except that as written an early
      return (failed probe, too long a video) leaves it on the accelerator because the
      `finally` block raises before releasing it. Other methods leave the accelerator
      alone. */
  lemma FinalWorld(job: Job, cleanup: Cleanup, held: bool)
    ensures Replay(World(held, false, {}), Execute(job, cleanup).effects)
      == World(AccelAfter(job, cleanup, held), false, {})
  {
    var t := TryBlock(job);
    TrailShape(job);
    var start := World(held, false, {});
    var acq := Acquire(job.methodName);
    var rel := Release(job.methodName);
    var handled := match t.exit case Returned => [] case Threw(_) => rel;
    var body := acq + t.effects + handled;
    var w1 := Replay(start, acq);
    ReplayAcquire(start, job.methodName);
    var w2 := Replay(w1, t.effects);
    ReplayTry(w1, job);
    ReplayAppend(start, acq, t.effects);
    var w3 := Replay(w2, handled);
    ReplayAppend(start, acq + t.effects, handled);
    ReplayRelease(w2, job.methodName);
    assert Replay(start, body) == w3;
    var out := Execute(job, cleanup);
    if t.framesDirBound {
      var tidy := RemoveAll(t.listing) + [RemoveFramesDir];
      assert out.effects == body + tidy + rel;
      ReplayAppend(start, body, tidy);
      ReplayTidy(w3, t.listing);
      ReplayAppend(start, body + tidy, rel);
      ReplayRelease(Replay(w3, tidy), job.methodName);
    } else if cleanup == Guarded {
      assert out.effects == body + [] + rel;
      assert body + [] == body;
      ReplayAppend(start, body, rel);
      ReplayRelease(w3, job.methodName);
    } else {
      assert out.effects == body;
    }
  }

  /** As written, the job raises out of its `finally` block exactly when it ends before
      `frames_dir` is assigned; the guarded clean-up never does. */
  lemma EscapesIff(job: Job)
    ensures ProcessVideo(job).escaped <==> !ReachesFramesDir(job)
    ensures !ProcessVideoGuarded(job).escaped
  {
    TrailShape(job);
  }

  /** Once the frames directory exists, both the except handler and the `finally` block
      move InSPyReNet's model back to the host, and the `finally` block removes every listed
      file and then the directory. */
  lemma CleanupAfterFramesDir(job: Job)
    requires ReachesFramesDir(job)
    ensures var out := ProcessVideo(job);
      var tidy := RemoveAll(TryBlock(job).listing) + [RemoveFramesDir] + Release(job.methodName);
      |out.effects| >= |tidy| && out.effects[|out.effects| - |tidy|..] == tidy && !out.escaped
    ensures var out := ProcessVideo(job);
      TryBlock(job).exit.Threw? && job.methodName == AcceleratedMethod ==>
        var k := |Acquire(job.methodName)| + |TryBlock(job).effects|;
        k < |out.effects| && out.effects[k] == AccelToHost && Last(out.effects) == AccelToHost
  {
    TrailShape(job);
    if TryBlock(job).exit.Threw? {
      CleanupAfterThrow(job);
    } else {
      CleanupAfterReturn(job);
    }
  }

  lemma CleanupAfterThrow(job: Job)
    requires TryBlock(job).framesDirBound && TryBlock(job).exit.Threw?
    ensures var out := ProcessVideo(job);
      var tidy := RemoveAll(TryBlock(job).listing) + [RemoveFramesDir] + Release(job.methodName);
      |out.effects| >= |tidy| && out.effects[|out.effects| - |tidy|..] == tidy && !out.escaped
    ensures var out := ProcessVideo(job);
      job.methodName == AcceleratedMethod ==>
        var k := |Acquire(job.methodName)| + |TryBlock(job).effects|;
        k < |out.effects| && out.effects[k] == AccelToHost && Last(out.effects) == AccelToHost
  {
    var t := TryBlock(job);
    var acq, rel, tidy := Acquire(job.methodName), Release(job.methodName), RemoveAll(t.listing) + [RemoveFramesDir];
    ThrewAfterFramesDir(job);
    TidyAtEnd(acq + t.effects + rel, tidy, rel);
    if job.methodName == AcceleratedMethod {
      assert rel == [AccelToHost];
      ReleasedTwice(acq, t.effects, tidy);
    }
  }

  /** Locates the two releases in a concatenation of effects over abstract parts, so that
      the job lemmas stay within the resource limit. */
  lemma ReleasedTwice(acq: seq<Effect>, te: seq<Effect>, tidy: seq<Effect>)
    ensures var all := acq + te + [AccelToHost] + tidy + [AccelToHost];
      |acq| + |te| < |all| && all[|acq| + |te|] == AccelToHost && Last(all) == AccelToHost
  {
  }

  lemma CleanupAfterReturn(job: Job)
    requires TryBlock(job).framesDirBound && TryBlock(job).exit.Returned?
    ensures var out := ProcessVideo(job);
      var tidy := RemoveAll(TryBlock(job).listing) + [RemoveFramesDir] + Release(job.methodName);
      |out.effects| >= |tidy| && out.effects[|out.effects| - |tidy|..] == tidy && !out.escaped
  {
    var t := TryBlock(job);
    ReturnedAfterFramesDir(job);
    TidyAtEnd(Acquire(job.methodName) + t.effects + [], RemoveAll(t.listing) + [RemoveFramesDir], Release(job.methodName));
  }

  /** States the suffix of a concatenation of effects over abstract parts, so that the job
      lemmas stay within the resource limit. */
  lemma TidyAtEnd(body: seq<Effect>, tidy: seq<Effect>, rel: seq<Effect>)
    ensures var all := body + tidy + rel;
      |all| >= |tidy + rel| && all[|all| - |tidy + rel|..] == tidy + rel
  {
    assert body + tidy + rel == body + (tidy + rel);
  }

  /** As written, an InSPyReNet job whose probe fails or whose video is too long keeps the
      model on the accelerator: the `finally` block raises on `frames_dir` before it reaches
      the release. */
  lemma EarlyExitKeepsAccelerator(job: Job, held: bool)
    requires job.methodName == AcceleratedMethod && EarlyReturn(job)
    ensures ProcessVideo(job).escaped
    ensures Replay(World(held, false, {}), ProcessVideo(job).effects).accelHeld
  {
    FinalWorld(job, AsWritten, held);
    TrailShape(job);
  }

  /** With the guarded clean-up an InSPyReNet job always returns the model to the host and
      never raises, and the registry sees exactly the same writes as before. */
  lemma GuardedCleanupReleases(job: Job, held: bool)
    requires job.methodName == AcceleratedMethod
    ensures !ProcessVideoGuarded(job).escaped
    ensures !Replay(World(held, false, {}), ProcessVideoGuarded(job).effects).accelHeld
    ensures ProcessVideoGuarded(job).writes == ProcessVideo(job).writes
  {
    FinalWorld(job, Guarded, held);
    TrailShape(job);
  }

  /** Guarding the clean-up changes only what happens after the try block: the guarded job
      writes exactly the records the job as written does, never raises, and has the same
      effects up to the point where the job as written raises; a job that does not raise is
      unchanged. */
  lemma GuardedSameWrites(job: Job)
    ensures ProcessVideoGuarded(job).writes == ProcessVideo(job).writes
    ensures !ProcessVideoGuarded(job).escaped
    ensures ProcessVideo(job).effects <= ProcessVideoGuarded(job).effects
    ensures !ProcessVideo(job).escaped ==> ProcessVideoGuarded(job) == ProcessVideo(job)
  {
  }

  // ---------------------------------------------------------------------------
  // The job seen through the status endpoint.
  // ---------------------------------------------------------------------------

  /** After a job, the status endpoint serves its output file when it completed and the file
      is there, 404 when the file is gone, and the error record otherwise; other jobs'
      answers are untouched. */
  lemma StatusAfterJob(reg: Registry, files: set<string>, job: Job, other: string)
    requires other != job.id
    ensures var after := Commit(reg, job.id, ProcessVideo(job).writes);
      && (Completes(job) && OutputPath(job.id) in files ==>
            GetStatus(after, files, job.id)
              == VideoFile(OutputPath(job.id), "video/webm", "processed_video_" + job.id + ".webm"))
      && (Completes(job) && OutputPath(job.id) !in files ==>
            GetStatus(after, files, job.id) == NotFound(MissingOutput))
      && (!Completes(job) ==> GetStatus(after, files, job.id) == Json(Last(ProcessVideo(job).writes)))
      && (!Completes(job) ==> Last(ProcessVideo(job).writes).status == Error)
      && GetStatus(after, files, other) == GetStatus(reg, files, other)
  {
    CompletedIff(job);
    ProgressNeverDecreases(job);
    var ws := ProcessVideo(job).writes;
    assert ws[|ws| - 1].status != Processing by {
      TerminalWrite(job);
    }
  }

  /** The last write of every job is terminal: the job never stays `processing`. */
  lemma TerminalWrite(job: Job)
    ensures |ProcessVideo(job).writes| > 0
    ensures Last(ProcessVideo(job).writes).status != Processing
  {
    if ExtractOk(job) && |FrameFiles(job)| > 0 {
      var loop := FrameLoop(job.methodName, job.faults, FrameFiles(job), 0);
    }
  }
}

=== FILE: naming.dfy ===
/** Names the server gives to the files of a job: the per-frame images written by the
    extractor, the per-job frames directory, and the input and output videos keyed by the
    job id. */
module Naming {
  import opened Text
  import opened Sorting

  const TempVideosDir := "temp_videos"
  const FramesRoot := TempVideosDir + "/frames"

  /** The `%05d` width of the frame-number field in the extraction and encoding patterns. */
  const FrameDigits := 5

  /** Numbers below this fit the frame-number field without widening it. */
  const FrameNumberLimit := 100000

  /** `frame_%05d.png` with number `n`. */
  function FrameName(n: nat): string {
    "frame_" + ZeroPad(n, FrameDigits) + ".png"
  }

  /** The frame files of a `count`-frame video, in the order the extractor numbers them
      (from 1). */
  function Frames(count: nat): (r: seq<string>)
    ensures |r| == count
  {
    seq(count, i requires 0 <= i < count => FrameName(i + 1))
  }

  /** The listing filtered by `f.endswith('.png')`, in listing order. */
  function PngOnly(listing: seq<string>): (r: seq<string>)
    ensures |r| <= |listing|
    ensures forall f :: f in r <==> f in listing && EndsWith(f, ".png")
  {
    if |listing| == 0 then []
    else
      var rest := PngOnly(listing[1..]);
      assert forall f :: f in listing <==> f == listing[0] || f in listing[1..] by {
        assert listing == [listing[0]] + listing[1..];
      }
      if EndsWith(listing[0], ".png") then [listing[0]] + rest else rest
  }

  /** The filter keeps each `.png` name as many times as the listing has it, and no other
      name. */
  lemma {:induction false} PngOnlyCounts(listing: seq<string>)
    ensures forall f :: multiset(PngOnly(listing))[f] == if EndsWith(f, ".png") then multiset(listing)[f] else 0
  {
    if |listing| > 0 {
      PngOnlyCounts(listing[1..]);
      assert multiset(listing) == multiset{listing[0]} + multiset(listing[1..]) by {
        assert listing == [listing[0]] + listing[1..];
      }
    }
  }

  /** The uploaded video of job `id`. */
  function InputPath(id: string): string {
    TempVideosDir + "/input_" + id + ".mp4"
  }

  /** The encoded result of job `id`. */
  function OutputPath(id: string): string {
    TempVideosDir + "/output_" + id + ".webm"
  }

  /** The directory holding the frames of job `id` while it runs. */
  function FramesDir(id: string): string {
    FramesRoot + "/" + id
  }

  lemma FrameNameShape(n: nat)
    requires n < FrameNumberLimit
    ensures FrameName(n) == "frame_" + FixedWidth(n, FrameDigits) + ".png"
  {
    assert Pow10(5) == FrameNumberLimit;
    NumDigitsAtMost(n, FrameDigits);
  }

  /** Below 100000, comparing frame names as strings is comparing frame numbers. */
  lemma FrameNameOrder(a: nat, b: nat)
    requires a < FrameNumberLimit && b < FrameNumberLimit
    ensures Less(FrameName(a), FrameName(b)) <==> a < b
  {
    FrameNameShape(a);
    FrameNameShape(b);
    assert Pow10(5) == FrameNumberLimit;
    var x := FixedWidth(a, FrameDigits);
    var y := FixedWidth(b, FrameDigits);
    FixedWidthOrder(a, b, FrameDigits);
    assert FrameName(a) == "frame_" + (x + ".png");
    assert FrameName(b) == "frame_" + (y + ".png");
    LessConcatSameLength("frame_", "frame_", x + ".png", y + ".png");
    LessIrreflexive("frame_");
    LessConcatSameLength(x, y, ".png", ".png");
    LessIrreflexive(".png");
  }

  /** The bound is tight: the 100000th frame gets a sixth digit and sorts before the
      99999th. */
  lemma FrameOrderBreaksAtSixDigits()
    ensures 99999 < 100000 && Less(FrameName(100000), FrameName(99999))
  {
    assert NumDigits(100000) == 6;
    assert FrameName(100000) == "frame_" + FixedWidth(100000, 6) + ".png";
    assert FixedWidth(100000, 6)[0] == '1';
    FrameNameShape(99999);
    assert FixedWidth(99999, 5)[0] == '9';
    var x := FixedWidth(100000, 6) + ".png";
    var y := FixedWidth(99999, 5) + ".png";
    assert FrameName(100000) == "frame_" + x;
    assert FrameName(99999) == "frame_" + y;
    LessConcatSameLength("frame_", "frame_", x, y);
    LessIrreflexive("frame_");
    assert x[0] == '1' && y[0] == '9';
  }

  lemma FrameNameIsPng(n: nat)
    ensures EndsWith(FrameName(n), ".png")
  {
    var s := FrameName(n);
    assert s[|s| - 4..] == ".png";
  }

  /** The frames of a video shorter than 100000 frames are listed in ascending string
      order. */
  lemma FramesStrictlySorted(count: nat)
    requires count < FrameNumberLimit
    ensures StrictlySorted(Frames(count))
  {
    forall i, j | 0 <= i < j < count
      ensures Less(Frames(count)[i], Frames(count)[j])
    {
      FrameNameOrder(i + 1, j + 1);
    }
  }

  /** Whatever order the directory listing comes in, sorting the `.png` names restores the
      extractor's frame order: frames are transformed in temporal order. */
  lemma ExtractedFramesInOrder(listing: seq<string>, count: nat)
    requires count < FrameNumberLimit
    requires multiset(PngOnly(listing)) == multiset(Frames(count))
    ensures Sort(PngOnly(listing)) == Frames(count)
  {
    FramesStrictlySorted(count);
    SortRestores(PngOnly(listing), Frames(count));
  }

  /** Distinct jobs never share an output file. */
  lemma OutputPathInjective(a: string, b: string)
    requires OutputPath(a) == OutputPath(b)
    ensures a == b
  {
    var n := |"temp_videos/output_"|;
    assert a == OutputPath(a)[n..|OutputPath(a)| - 5];
    assert b == OutputPath(b)[n..|OutputPath(b)| - 5];
  }

  /** Distinct jobs never share a frames directory, so one job's clean-up never removes
      another's frames. */
  lemma FramesDirInjective(a: string, b: string)
    requires FramesDir(a) == FramesDir(b)
    ensures a == b
  {
    var n := |"temp_videos/frames/"|;
    assert a == FramesDir(a)[n..];
    assert b == FramesDir(b)[n..];
  }

  /** Distinct jobs never share an input file. */
  lemma InputPathInjective(a: string, b: string)
    requires InputPath(a) == InputPath(b)
    ensures a == b
  {
    var n := |"temp_videos/input_"|;
    assert a == InputPath(a)[n..|InputPath(a)| - 4];
    assert b == InputPath(b)[n..|InputPath(b)| - 4];
  }

  /** No job's input can be mistaken for any job's output. */
  lemma InputNeverOutput(a: string, b: string)
    ensures InputPath(a) != OutputPath(b)
  {
    assert InputPath(a)[12] == 'i';
    assert OutputPath(b)[12] == 'o';
  }
}

=== FILE: orchestrator.dfy ===
/** The video job (`process_video`) as a pure function of what its external steps return.
    The probe, extraction and encoding subprocesses become `Run` values, the backends become
    per-frame faults, and the result is the ordered list of writes to
    `processing_status[video_id]` together with the ordered list of effects on the outside
    world (subprocesses, frame files, the accelerator). Line numbers in comments refer to
    server/server.py. */
module Orchestrator {
  import opened Wrappers
  import opened Text
  import opened Sorting
  import opened Naming
  import opened Backends
  import opened Status

  /** The longest video accepted, in frames. */
  const MaxFrames := 250

  const Initializing := "Initializing"
  const ExtractingFrames := "Extracting frames"
  const RemovingBackground := "Removing background"
  const EncodingVideo := "Encoding video"

  const CountError := "Error counting frames"
  const TooLong := "Video too long (max 250 frames)"
  const ExtractError := "Error extracting frames"
  const NoFrames := "No frames were extracted from the video"
  const EncodeError := "Error creating output video"

  /** What starting a subprocess and waiting for it gives: its exit code and standard
      output, or the exception raised when it could not be started. */
  datatype Run = Ran(exitCode: int, stdout: string) | Raised(error: string)

  /** Everything one job's outcome depends on. `extracted` is the listing of the frames
      directory once the extractor has run (in whatever order the listing comes);
      `faults` are the frames whose reading or transformation raises. */
  datatype Job = Job(
    id: string,
    methodName: string,
    probe: Run,
    extract: Run,
    extracted: seq<string>,
    faults: map<string, FrameFault>,
    encode: Run)

  /** The job's effects on the world outside the registry, in order. `Probe`, `Extract` and
      `Encode` mark an attempt to start the subprocess: they are recorded even when starting
      it raises, and then `Extract` carries no files. */
  datatype Effect =
    | AccelToDevice
    | AccelToHost
    | Probe
    | MakeFramesDir
    | Extract(written: seq<string>)
    | ReadFrame(name: string)
    | Segment(name: string, backend: Backend)
    | Encode(output: string)
    | RemoveFrame(name: string)
    | RemoveFramesDir

  /** The part of the world a job changes: whether the InSPyReNet model sits on the
      accelerator, whether the job's frames directory exists, and the files in it. */
  datatype World = World(accelHeld: bool, dirExists: bool, frames: set<string>)

  function Apply(w: World, e: Effect): World {
    match e
    case AccelToDevice => w.(accelHeld := true)
    case AccelToHost => w.(accelHeld := false)
    case MakeFramesDir => w.(dirExists := true)
    case Extract(written) => w.(frames := w.frames + (set f | f in written))
    case RemoveFrame(name) => w.(frames := w.frames - {name})
    case RemoveFramesDir => w.(dirExists := false)
    case _ => w
  }

  function Replay(w: World, effects: seq<Effect>): World
    decreases |effects|
  {
    if |effects| == 0 then w else Apply(Replay(w, effects[..|effects| - 1]), effects[|effects| - 1])
  }

  // ---------------------------------------------------------------------------
  // The try block.
  // ---------------------------------------------------------------------------

  /** How the try block ends: by `return` (or falling off its end), or by an exception
      carrying `str(e)`. */
  datatype Exit = Returned | Threw(message: string)

  /** What the try block leaves behind: the writes and effects so far, whether the local
      `frames_dir` has been assigned, and what the frames directory then holds. */
  datatype Trail = Trail(writes: seq<Record>, effects: seq<Effect>, framesDirBound: bool, listing: seq<string>, exit: Exit)

  /** The per-frame loop's writes and effects, and the exception that stopped it, if any. */
  datatype LoopTrail = LoopTrail(writes: seq<Record>, effects: seq<Effect>, error: Option<string>)

  /** `(i + 1) / total_frames * 100`, the progress after the frame at 0-based index `i`. */
  function FrameProgress(i: nat, total: nat): real
    requires i < total
  {
    (i + 1) as real / total as real * 100.0
  }

  /** Reading and transforming each of `frames` in turn with backend `b`. */
  function Transforms(frames: seq<string>, b: Backend): (r: seq<Effect>)
    ensures |r| == 2 * |frames|
  {
    if |frames| == 0 then [] else [ReadFrame(frames[0]), Segment(frames[0], b)] + Transforms(frames[1..], b)
  }

  /** Effects that touch neither the accelerator nor the frames directory's existence or
      contents (a transformed frame is saved under its own name). */
  predicate Quiet(effects: seq<Effect>) {
    forall k :: 0 <= k < |effects| ==> effects[k].ReadFrame? || effects[k].Segment? || effects[k].Encode?
  }

  /** The index of the first frame at or after `i` that faults, or `|frames|` when none
      does. */
  function FirstFault(frames: seq<string>, faults: map<string, FrameFault>, i: nat): (j: nat)
    requires i <= |frames|
    ensures i <= j <= |frames|
    ensures forall k :: i <= k < j ==> frames[k] !in faults
    ensures j < |frames| ==> frames[j] in faults
    decreases |frames| - i
  {
    if i == |frames| || frames[i] in faults then i else FirstFault(frames, faults, i + 1)
  }

  /** What a frame that faults under backend `b` leaves in the effects: the read, and the
      backend call when the read went through. */
  function FaultEffects(name: string, fault: FrameFault, b: Backend): seq<Effect> {
    [ReadFrame(name)] + (if fault.SegmentRaises? then [Segment(name, b)] else [])
  }

  /** The loop over the sorted frames, from index `i` on. */
  function FrameLoop(methodName: string, faults: map<string, FrameFault>, frames: seq<string>, i: nat): (r: LoopTrail)
    requires i <= |frames|
    ensures |r.writes| <= |frames| - i
    ensures r.error.None? ==> |r.writes| == |frames| - i
    ensures forall k :: 0 <= k < |r.writes| ==> r.writes[k] == FrameDone(FrameProgress(i + k, |frames|))
    ensures r.error.None? <==> (i == |frames| || methodName in Methods) && forall k :: i <= k < |frames| ==> frames[k] !in faults
    ensures methodName !in Methods && i < |frames| && !(frames[i] in faults && faults[frames[i]].ReadRaises?) ==>
      r == LoopTrail([], [ReadFrame(frames[i])], Some(InvalidMethod))
    ensures r.error.None? && i < |frames| ==> Dispatch(methodName).Some? && r.effects == Transforms(frames[i..], Dispatch(methodName).value)
    ensures Quiet(r.effects)
    decreases |frames| - i
  {
    if i == |frames| then LoopTrail([], [], None)
    else
      var name := frames[i];
      match ProcessFrame(name, methodName, faults)
      case FrameFailed(m, called) =>
        var tried := if called.Some? then [Segment(name, called.value)] else [];
        LoopTrail([], [ReadFrame(name)] + tried, Some(m))
      case Transformed(b) =>
        var rest := FrameLoop(methodName, faults, frames, i + 1);
        assert frames[i..] == [frames[i]] + frames[i + 1..];
        LoopTrail([FrameDone(FrameProgress(i, |frames|))] + rest.writes, [ReadFrame(name), Segment(name, b)] + rest.effects, rest.error)
  }

  /** Lines 139-166: the first record, the probe, and the frame-count gate. */
  function TryBlock(job: Job): Trail {
    var writes := [Progressing(0.0, Initializing)];
    match job.probe
    case Raised(e) => Trail(writes, [Probe], false, [], Threw(e))
    case Ran(code, out) =>
      if code != 0 then Trail(writes + [Failed(CountError)], [Probe], false, [], Returned)
      else
        var text := Strip(out);
        match PyInt(text)
        case None => Trail(writes, [Probe], false, [], Threw(IntErrorMessage(text)))
        case Some(n) =>
          if n > MaxFrames then Trail(writes + [Failed(TooLong)], [Probe], false, [], Returned)
          else ExtractStage(job, writes, [Probe])
  }

  /** Lines 169-187: the frames directory and the extraction. */
  function ExtractStage(job: Job, writes: seq<Record>, effects: seq<Effect>): Trail {
    var writes := writes + [Progressing(0.0, ExtractingFrames)];
    var effects := effects + [MakeFramesDir];
    match job.extract
    case Raised(e) => Trail(writes, effects + [Extract([])], true, [], Threw(e))
    case Ran(code, _) =>
      var effects := effects + [Extract(job.extracted)];
      if code != 0 then Trail(writes + [Failed(ExtractError)], effects, true, job.extracted, Returned)
      else TransformStage(job, writes, effects)
  }

  /** The frames the loop visits: the `.png` names of the listing, sorted as strings. */
  function FrameFiles(job: Job): seq<string> {
    Sort(PngOnly(job.extracted))
  }

  /** Lines 190-206: the per-frame loop. */
  function TransformStage(job: Job, writes: seq<Record>, effects: seq<Effect>): Trail {
    var writes := writes + [Progressing(0.0, RemovingBackground)];
    var frames := FrameFiles(job);
    if |frames| == 0 then Trail(writes + [Failed(NoFrames)], effects, true, job.extracted, Returned)
    else
      var loop := FrameLoop(job.methodName, job.faults, frames, 0);
      match loop.error
      case Some(m) => Trail(writes + loop.writes, effects + loop.effects, true, job.extracted, Threw(m))
      case None => EncodeStage(job, writes + loop.writes, effects + loop.effects)
  }

  /** Lines 210-235: the encoding and the completed record. */
  function EncodeStage(job: Job, writes: seq<Record>, effects: seq<Effect>): Trail {
    var writes := writes + [Progressing(100.0, EncodingVideo)];
    var output := OutputPath(job.id);
    var effects := effects + [Encode(output)];
    match job.encode
    case Raised(e) => Trail(writes, effects, true, job.extracted, Threw(e))
    case Ran(code, _) =>
      if code != 0 then Trail(writes + [Failed(EncodeError)], effects, true, job.extracted, Returned)
      else Trail(writes + [Done(output)], effects, true, job.extracted, Returned)
  }

  /** An unreadable frame stops the loop with its exception, whatever the method: nothing
      is written and no backend is called. */
  lemma UnreadableFrameStopsLoop(methodName: string, faults: map<string, FrameFault>, frames: seq<string>, i: nat)
    requires i < |frames| && frames[i] in faults && faults[frames[i]].ReadRaises?
    ensures FrameLoop(methodName, faults, frames, i) ==
      LoopTrail([], [ReadFrame(frames[i])], Some(faults[frames[i]].message))
  {
  }

  /** Under a known method the loop writes one record for each frame before the first
      faulting one (for all of them when none faults). */
  lemma {:induction false} LoopWritesBeforeFirstFault(methodName: string, faults: map<string, FrameFault>, frames: seq<string>, i: nat)
    requires i <= |frames| && methodName in Methods
    ensures |FrameLoop(methodName, faults, frames, i).writes| == FirstFault(frames, faults, i) - i
    decreases |frames| - i
  {
    if i < |frames| && frames[i] !in faults {
      LoopWritesBeforeFirstFault(methodName, faults, frames, i + 1);
    }
  }

  /** Under a known method the loop stops at the first faulting frame, having transformed
      every frame before it, and reports that frame's exception. */
  lemma {:induction false} LoopStopsAtFirstFault(methodName: string, faults: map<string, FrameFault>, frames: seq<string>, i: nat)
    requires i <= |frames| && methodName in Methods
    requires FirstFault(frames, faults, i) < |frames|
    ensures var r := FrameLoop(methodName, faults, frames, i); var j := FirstFault(frames, faults, i);
      && r.error == Some(faults[frames[j]].message)
      && r.effects == Transforms(frames[i..j], Dispatch(methodName).value)
           + FaultEffects(frames[j], faults[frames[j]], Dispatch(methodName).value)
    decreases |frames| - i
  {
    var b := Dispatch(methodName).value;
    var j := FirstFault(frames, faults, i);
    if frames[i] !in faults {
      var rest := FrameLoop(methodName, faults, frames, i + 1);
      assert ProcessFrame(frames[i], methodName, faults) == Transformed(b);
      assert FrameLoop(methodName, faults, frames, i).effects == [ReadFrame(frames[i]), Segment(frames[i], b)] + rest.effects;
      LoopStopsAtFirstFault(methodName, faults, frames, i + 1);
      assert frames[i..j] == [frames[i]] + frames[i + 1..j];
      assert Transforms(frames[i..j], b) == [ReadFrame(frames[i]), Segment(frames[i], b)] + Transforms(frames[i + 1..j], b);
    } else {
      assert frames[i..i] == [];
    }
  }

  // ---------------------------------------------------------------------------
  // The whole job: acquire, try, except, finally.
  // ---------------------------------------------------------------------------

  /** How the `finally` block treats a `frames_dir` that was never assigned: as written it
      reads the unbound local and raises; `Guarded` is the same block with `frames_dir`
      bound to `None` before the `try` and the directory clean-up skipped while it is. */
  datatype Cleanup = AsWritten | Guarded

  /** The job's writes and effects, and whether an exception escapes it (raised inside the
      `finally` block, so the rest of that block does not run). */
  datatype Outcome = Outcome(writes: seq<Record>, effects: seq<Effect>, escaped: bool)

  /** `os.remove` on every listed file, in listing order. */
  function RemoveAll(files: seq<string>): (r: seq<Effect>)
    ensures |r| == |files|
  {
    seq(|files|, i requires 0 <= i < |files| => RemoveFrame(files[i]))
  }

  /** Line 137: InSPyReNet's model is moved onto the accelerator before anything else. */
  function Acquire(methodName: string): seq<Effect> {
    if methodName == AcceleratedMethod then [AccelToDevice] else []
  }

  /** Lines 241-243 and 252-254: the model is moved back to the host. */
  function Release(methodName: string): seq<Effect> {
    if methodName == AcceleratedMethod then [AccelToHost] else []
  }

  function Execute(job: Job, cleanup: Cleanup): Outcome {
    var acquire := Acquire(job.methodName);
    var t := TryBlock(job);
    var writes := match t.exit case Returned => t.writes case Threw(m) => t.writes + [Failed(m)];
    var handled := match t.exit case Returned => [] case Threw(_) => Release(job.methodName);
    var body := acquire + t.effects + handled;
    if !t.framesDirBound && cleanup == AsWritten then Outcome(writes, body, true)
    else
      var tidy := if t.framesDirBound then RemoveAll(t.listing) + [RemoveFramesDir] else [];
      Outcome(writes, body + tidy + Release(job.methodName), false)
  }

  /** `process_video` as written. */
  function ProcessVideo(job: Job): Outcome {
    Execute(job, AsWritten)
  }

  /** `process_video` with its `finally` block guarded against an unassigned `frames_dir`. */
  function ProcessVideoGuarded(job: Job): Outcome {
    Execute(job, Guarded)
  }
}

=== FILE: sorting.dfy ===
/** Python's `sorted()` on a list of strings, as the orchestrator applies it to the frame
    directory listing. */
module Sorting {
  import opened Text

  /** Every element is at most every later one, in string order. */
  predicate Sorted(s: seq<string>) {
    forall i, j :: 0 <= i < j < |s| ==> LessEq(s[i], s[j])
  }

  /** Every element is strictly below every later one: sorted, with no repeats. */
  predicate StrictlySorted(s: seq<string>) {
    forall i, j :: 0 <= i < j < |s| ==> Less(s[i], s[j])
  }

  /** A sorted list stays sorted with an element in front that is at most all of it. */
  lemma SortedCons(h: string, t: seq<string>)
    requires Sorted(t)
    requires forall k :: 0 <= k < |t| ==> LessEq(h, t[k])
    ensures Sorted([h] + t)
  {
    var r := [h] + t;
    forall i, j | 0 <= i < j < |r|
      ensures LessEq(r[i], r[j])
    {
      assert r[j] == t[j - 1];
      if i > 0 {
        assert r[i] == t[i - 1];
      }
    }
  }

  /** A lower bound of a list and of `x` bounds any list holding the same strings plus `x`. */
  lemma BoundedAfterInsert(lo: string, t: seq<string>, x: string, r: seq<string>)
    requires multiset(r) == multiset(t) + multiset{x}
    requires LessEq(lo, x)
    requires forall k :: 0 <= k < |t| ==> LessEq(lo, t[k])
    ensures forall k :: 0 <= k < |r| ==> LessEq(lo, r[k])
  {
    forall k | 0 <= k < |r|
      ensures LessEq(lo, r[k])
    {
      assert r[k] in multiset(r);
      if r[k] != x {
        assert r[k] in multiset(t);
        var m :| 0 <= m < |t| && t[m] == r[k];
      }
    }
  }

  /** Puts `x` into a sorted list in front of the first element not below it. */
  function Insert(x: string, s: seq<string>): (r: seq<string>)
    requires Sorted(s)
    ensures Sorted(r)
    ensures multiset(r) == multiset(s) + multiset{x}
  {
    if |s| == 0 then [x]
    else if Less(s[0], x) then
      var rest := Insert(x, s[1..]);
      assert s == [s[0]] + s[1..];
      BoundedAfterInsert(s[0], s[1..], x, rest);
      SortedCons(s[0], rest);
      [s[0]] + rest
    else
      LessTotal(s[0], x);
      assert forall k :: 0 <= k < |s| ==> LessEq(x, s[k]) by {
        forall k | 0 <= k < |s|
          ensures LessEq(x, s[k])
        {
          LessEqTransitive(x, s[0], s[k]);
        }
      }
      SortedCons(x, s);
      [x] + s
  }

  /** Python's `sorted(s)` for strings. */
  function Sort(s: seq<string>): (r: seq<string>)
    ensures Sorted(r)
    ensures multiset(r) == multiset(s)
  {
    if |s| == 0 then []
    else
      assert s == [s[0]] + s[1..];
      Insert(s[0], Sort(s[1..]))
  }

  /** The head of a sorted list is at most each of its strings. */
  lemma HeadIsLeast(a: seq<string>, e: string)
    requires Sorted(a) && e in multiset(a)
    ensures LessEq(a[0], e)
  {
    var i :| 0 <= i < |a| && a[i] == e;
    if i == 0 {
      assert LessEq(e, e);
    }
  }

  lemma MultisetTail(a: seq<string>)
    requires |a| > 0
    ensures multiset(a[1..]) == multiset(a) - multiset{a[0]}
  {
    assert a == [a[0]] + a[1..];
  }

  /** A sorted arrangement of a multiset of strings is unique, so `sorted` of any
      rearrangement of an already sorted list gives that list back. */
  lemma {:induction false} SortedUnique(a: seq<string>, b: seq<string>)
    requires Sorted(a) && Sorted(b)
    requires multiset(a) == multiset(b)
    ensures a == b
    decreases |a|
  {
    assert |a| == |multiset(a)| == |multiset(b)| == |b|;
    if |a| > 0 {
      HeadIsLeast(a, b[0]);
      HeadIsLeast(b, a[0]);
      LessEqAntisymmetric(a[0], b[0]);
      MultisetTail(a);
      MultisetTail(b);
      SortedUnique(a[1..], b[1..]);
      assert a == [a[0]] + a[1..] && b == [b[0]] + b[1..];
    }
  }

  /** Sorting a strictly sorted list's rearrangement restores it. */
  lemma SortRestores(s: seq<string>, target: seq<string>)
    requires StrictlySorted(target)
    requires multiset(s) == multiset(target)
    ensures Sort(s) == target
  {
    SortedUnique(Sort(s), target);
  }
}

=== FILE: status.dfy ===
/** The status records kept in `processing_status`, the registry they live in, and the
    status endpoint that reads it. */
module Status {
  import opened Wrappers

  datatype Phase = Processing | Completed | Error

  /** One value of `processing_status[video_id]`: a dictionary whose `progress`, `message`
      and `output_path` keys may be absent. */
  datatype Record = Record(status: Phase, progress: Option<real>, message: Option<string>, outputPath: Option<string>)

  /** `{'status': 'processing', 'progress': p, 'message': m}` */
  function Progressing(p: real, msg: string): Record {
    Record(Processing, Some(p), Some(msg), None)
  }

  /** `{'status': 'processing', 'progress': p}`, written after each frame. */
  function FrameDone(p: real): Record {
    Record(Processing, Some(p), None, None)
  }

  /** `{'status': 'error', 'message': m}` */
  function Failed(msg: string): Record {
    Record(Error, None, Some(msg), None)
  }

  /** `{'status': 'completed', 'output_path': path}` */
  function Done(path: string): Record {
    Record(Completed, None, None, Some(path))
  }

  /** The shapes the orchestrator writes: a processing record carries a progress in [0, 100]
      and no path; a completed one a path and nothing else; an error one a message only. */
  predicate WellFormed(r: Record) {
    match r.status
    case Processing => r.progress.Some? && 0.0 <= r.progress.value <= 100.0 && r.outputPath.None?
    case Completed => r.outputPath.Some? && r.progress.None? && r.message.None?
    case Error => r.message.Some? && r.progress.None? && r.outputPath.None?
  }

  /** `processing_status`: job id to latest record. */
  type Registry = map<string, Record>

  /** Applying one job's writes, in order, to the registry. Each write replaces the whole
      record under `id` and touches no other key. */
  function Commit(reg: Registry, id: string, writes: seq<Record>): (r: Registry)
    ensures forall k :: k != id ==> (k in r <==> k in reg)
    ensures forall k :: k != id && k in reg ==> r[k] == reg[k]
    ensures |writes| > 0 ==> id in r && r[id] == writes[|writes| - 1]
    ensures |writes| == 0 ==> r == reg
    decreases |writes|
  {
    if |writes| == 0 then reg else Commit(reg[id := writes[0]], id, writes[1..])
  }

  /** What `GET /status/{video_id}` answers. */
  datatype Response =
    | NotFound(detail: string)
    | ServerError
    | VideoFile(path: string, mediaType: string, filename: string)
    | Json(record: Record)

  const UnknownId := "Video ID not found"
  const MissingOutput := "Processed video file not found"

  /** The status endpoint: 404 for an unknown id; for a completed job the output file, or
      404 when that file is gone; any other record returned as it is. `files` is the set of
      paths that exist. A completed record without an `output_path` key makes the lookup
      raise, which the framework turns into a 500. */
  function GetStatus(reg: Registry, files: set<string>, id: string): (r: Response)
    ensures r == NotFound(UnknownId) <==> id !in reg
    ensures r == NotFound(MissingOutput) <==>
      id in reg && reg[id].status == Completed && reg[id].outputPath.Some? && reg[id].outputPath.value !in files
    ensures r.VideoFile? <==>
      id in reg && reg[id].status == Completed && reg[id].outputPath.Some? && reg[id].outputPath.value in files
    ensures r.VideoFile? ==>
      r == VideoFile(reg[id].outputPath.value, "video/webm", "processed_video_" + id + ".webm")
    ensures r.Json? <==> id in reg && reg[id].status != Completed
    ensures r.Json? ==> r.record == reg[id]
    ensures r.ServerError? <==> id in reg && reg[id].status == Completed && reg[id].outputPath.None?
  {
    if id !in reg then NotFound(UnknownId)
    else
      var rec := reg[id];
      if rec.status == Completed then
        match rec.outputPath
        case None => ServerError
        case Some(path) =>
          if path !in files then NotFound(MissingOutput)
          else VideoFile(path, "video/webm", "processed_video_" + id + ".webm")
      else Json(rec)
  }

  /** A registry holding only records of the shapes the orchestrator writes never makes the
      status endpoint fail with a 500. */
  lemma WellFormedNeverServerError(reg: Registry, files: set<string>, id: string)
    requires forall k :: k in reg ==> WellFormed(reg[k])
    ensures !GetStatus(reg, files, id).ServerError?
  {
  }

  /** Committing one job's writes changes what the status endpoint answers for no other
      job. */
  lemma StatusIsolation(reg: Registry, files: set<string>, id: string, writes: seq<Record>, other: string)
    requires other != id
    ensures GetStatus(Commit(reg, id, writes), files, other) == GetStatus(reg, files, other)
  {
  }
}

=== FILE: text.dfy ===
/** The few pieces of Python's `str` behaviour the server relies on: ordering (`<`, used by
    `sorted`), `strip()`, `endswith`, decimal formatting (`str(n)` and `%05d`) and `int(s)`. */
module Text {
  import opened Wrappers

  // ---------------------------------------------------------------------------
  // Ordering: Python compares strings code point by code point; a proper prefix
  // comes first.
  // ---------------------------------------------------------------------------

  predicate Less(a: string, b: string)
    decreases |a|
  {
    if |a| == 0 then |b| > 0
    else if |b| == 0 then false
    else if a[0] != b[0] then a[0] < b[0]
    else Less(a[1..], b[1..])
  }

  predicate LessEq(a: string, b: string) {
    a == b || Less(a, b)
  }

  lemma {:induction false} LessIrreflexive(a: string)
    ensures !Less(a, a)
    decreases |a|
  {
    if |a| > 0 {
      LessIrreflexive(a[1..]);
    }
  }

  lemma {:induction false} LessAsymmetric(a: string, b: string)
    requires Less(a, b)
    ensures !Less(b, a)
    decreases |a|
  {
    if |a| > 0 && |b| > 0 && a[0] == b[0] {
      LessAsymmetric(a[1..], b[1..]);
    }
  }

  lemma {:induction false} LessTransitive(a: string, b: string, c: string)
    requires Less(a, b) && Less(b, c)
    ensures Less(a, c)
    decreases |a|
  {
    if |a| > 0 && a[0] == b[0] && b[0] == c[0] {
      LessTransitive(a[1..], b[1..], c[1..]);
    }
  }

  /** Any two strings are comparable: `sorted` has a single answer. */
  lemma {:induction false} LessTotal(a: string, b: string)
    ensures a == b || Less(a, b) || Less(b, a)
    decreases |a|
  {
    if |a| > 0 && |b| > 0 && a[0] == b[0] {
      LessTotal(a[1..], b[1..]);
      if a[1..] == b[1..] {
        assert a == [a[0]] + a[1..] && b == [b[0]] + b[1..];
      }
    }
  }

  lemma LessEqTransitive(a: string, b: string, c: string)
    requires LessEq(a, b) && LessEq(b, c)
    ensures LessEq(a, c)
  {
    if a != b && b != c {
      LessTransitive(a, b, c);
    }
  }

  lemma LessEqAntisymmetric(a: string, b: string)
    requires LessEq(a, b) && LessEq(b, a)
    ensures a == b
  {
    if a != b {
      LessAsymmetric(a, b);
    }
  }

  /** Comparing two concatenations whose first parts have equal length: the first parts
      decide, and only when they are equal do the second parts. */
  lemma {:induction false} LessConcatSameLength(x: string, y: string, s: string, t: string)
    requires |x| == |y|
    ensures Less(x + s, y + t) <==> Less(x, y) || (x == y && Less(s, t))
    decreases |x|
  {
    if |x| == 0 {
      assert x + s == s && y + t == t;
    } else {
      assert (x + s)[1..] == x[1..] + s;
      assert (y + t)[1..] == y[1..] + t;
      LessConcatSameLength(x[1..], y[1..], s, t);
      if x == y {
        LessIrreflexive(x);
      }
    }
  }

  // ---------------------------------------------------------------------------
  // Whitespace and suffixes.
  // ---------------------------------------------------------------------------

  /** Python's `str.isspace()` on one character. */
  predicate IsSpace(c: char) {
    var k := c as int;
    || 9 <= k <= 13
    || 28 <= k <= 32
    || k == 0x85 || k == 0xA0 || k == 0x1680
    || 0x2000 <= k <= 0x200A
    || k == 0x2028 || k == 0x2029 || k == 0x202F || k == 0x205F || k == 0x3000
  }

  predicate AllSpace(s: string) {
    forall i :: 0 <= i < |s| ==> IsSpace(s[i])
  }

  /** Neither end of `s` is whitespace: what `strip()` leaves. */
  predicate Trimmed(s: string) {
    |s| == 0 || (!IsSpace(s[0]) && !IsSpace(s[|s| - 1]))
  }

  function TrimStart(s: string): (r: string)
    ensures |r| == 0 || !IsSpace(r[0])
  {
    if |s| > 0 && IsSpace(s[0]) then TrimStart(s[1..]) else s
  }

  function TrimEnd(s: string): (r: string)
    ensures |r| <= |s| && r == s[..|r|]
    ensures |r| == 0 || !IsSpace(r[|r| - 1])
  {
    if |s| > 0 && IsSpace(s[|s| - 1]) then TrimEnd(s[..|s| - 1]) else s
  }

  /** Python's `s.strip()`: a blank text strips to the empty string, and only a blank one does. */
  function Strip(s: string): (r: string)
    ensures Trimmed(r)
    ensures r == "" <==> AllSpace(s)
  {
    TrimBothBlank(s);
    TrimEnd(TrimStart(s))
  }

  /** Trimming both ends empties a text exactly when it is all whitespace. */
  lemma TrimBothBlank(s: string)
    ensures TrimEnd(TrimStart(s)) == "" <==> AllSpace(s)
  {
    TrimStartBlank(s);
    if |TrimStart(s)| > 0 {
      TrimEndKeepsFirst(TrimStart(s));
    }
  }

  /** Trimming the start empties a text exactly when it is all whitespace. */
  lemma {:induction false} TrimStartBlank(s: string)
    ensures TrimStart(s) == "" <==> AllSpace(s)
    decreases |s|
  {
    if |s| > 0 && IsSpace(s[0]) {
      TrimStartBlank(s[1..]);
      assert AllSpace(s) <==> AllSpace(s[1..]) by {
        assert forall i :: 0 < i < |s| ==> s[i] == s[1..][i - 1];
      }
    }
  }

  /** Trimming the end keeps a text whose first character is not whitespace non-empty. */
  lemma {:induction false} TrimEndKeepsFirst(t: string)
    requires |t| > 0 && !IsSpace(t[0])
    ensures |TrimEnd(t)| > 0
    decreases |t|
  {
    if IsSpace(t[|t| - 1]) {
      TrimEndKeepsFirst(t[..|t| - 1]);
    }
  }

  lemma {:induction false} TrimStartSpaces(p: string, t: string)
    requires AllSpace(p)
    requires |t| == 0 || !IsSpace(t[0])
    ensures TrimStart(p + t) == t
    decreases |p|
  {
    if |p| > 0 {
      assert (p + t)[1..] == p[1..] + t;
      TrimStartSpaces(p[1..], t);
    } else {
      assert p + t == t;
    }
  }

  lemma {:induction false} TrimEndSpaces(t: string, q: string)
    requires AllSpace(q)
    requires |t| == 0 || !IsSpace(t[|t| - 1])
    ensures TrimEnd(t + q) == t
    decreases |q|
  {
    if |q| > 0 {
      assert (t + q)[..|t + q| - 1] == t + q[..|q| - 1];
      TrimEndSpaces(t, q[..|q| - 1]);
    } else {
      assert t + q == t;
    }
  }

  /** `strip()` removes exactly the surrounding whitespace of a non-blank text. */
  lemma StripPadded(p: string, s: string, q: string)
    requires AllSpace(p) && AllSpace(q)
    requires |s| > 0 && Trimmed(s)
    ensures Strip(p + s + q) == s
  {
    assert p + s + q == p + (s + q);
    TrimStartSpaces(p, s + q);
    TrimEndSpaces(s, q);
  }

  /** A text without surrounding whitespace is left alone by `strip()`. */
  lemma StripTrimmed(s: string)
    requires Trimmed(s)
    ensures Strip(s) == s
  {
    if |s| > 0 {
      assert TrimStart(s) == s;
      assert TrimEnd(s) == s;
    }
  }

  /** Stripping twice is stripping once. */
  lemma StripIdempotent(s: string)
    ensures Strip(Strip(s)) == Strip(s)
  {
    StripTrimmed(Strip(s));
  }

  /** Python's `s.endswith(suffix)`. */
  predicate EndsWith(s: string, suffix: string) {
    |suffix| <= |s| && s[|s| - |suffix|..] == suffix
  }

  // ---------------------------------------------------------------------------
  // Decimal numerals.
  // ---------------------------------------------------------------------------

  predicate IsDigit(c: char) {
    '0' <= c <= '9'
  }

  function DigitChar(d: nat): (c: char)
    requires d < 10
    ensures IsDigit(c)
  {
    (48 + d) as char
  }

  function Pow10(k: nat): nat {
    if k == 0 then 1 else 10 * Pow10(k - 1)
  }

  /** The last `width` decimal digits of `n`, most significant first, zero-filled. */
  function FixedWidth(n: nat, width: nat): (s: string)
    ensures |s| == width
  {
    if width == 0 then "" else FixedWidth(n / 10, width - 1) + [DigitChar(n % 10)]
  }

  /** How many digits `n` has in decimal (zero has one). */
  function NumDigits(n: nat): nat {
    if n < 10 then 1 else 1 + NumDigits(n / 10)
  }

  /** printf's `%0<width>d` on a non-negative value: the decimal digits of `n`, zero-filled
      on the left to at least `width` characters and never truncated. */
  function ZeroPad(n: nat, width: nat): string {
    FixedWidth(n, if NumDigits(n) < width then width else NumDigits(n))
  }

  /** Python's `str(n)` on an integer. */
  function Decimal(n: int): string {
    if n < 0 then "-" + ZeroPad(-n, 0) else ZeroPad(n, 0)
  }

  lemma {:induction false} NumDigitsFits(n: nat)
    ensures n < Pow10(NumDigits(n))
    decreases n
  {
    if n >= 10 {
      NumDigitsFits(n / 10);
    }
  }

  lemma {:induction false} NumDigitsAtMost(n: nat, width: nat)
    requires 1 <= width && n < Pow10(width)
    ensures NumDigits(n) <= width
    decreases width
  {
    if n >= 10 {
      assert width >= 2;
      NumDigitsAtMost(n / 10, width - 1);
    }
  }

  lemma DivModOrder(a: nat, b: nat)
    ensures a < b <==> a / 10 < b / 10 || (a / 10 == b / 10 && a % 10 < b % 10)
  {
    assert a == 10 * (a / 10) + a % 10;
    assert b == 10 * (b / 10) + b % 10;
  }

  /** Fixed-width numerals compare as strings exactly as their values compare. */
  lemma {:induction false} FixedWidthOrder(a: nat, b: nat, width: nat)
    requires a < Pow10(width) && b < Pow10(width)
    ensures Less(FixedWidth(a, width), FixedWidth(b, width)) <==> a < b
    decreases width
  {
    if width == 0 {
      LessIrreflexive("");
    } else {
      var x := FixedWidth(a / 10, width - 1);
      var y := FixedWidth(b / 10, width - 1);
      var c := DigitChar(a % 10);
      var d := DigitChar(b % 10);
      FixedWidthOrder(a / 10, b / 10, width - 1);
      FixedWidthOrder(b / 10, a / 10, width - 1);
      LessConcatSameLength(x, y, [c], [d]);
      assert Less([c], [d]) <==> a % 10 < b % 10;
      if x == y {
        LessIrreflexive(x);
      }
      DivModOrder(a, b);
    }
  }

  lemma {:induction false} FixedWidthAllDigits(n: nat, width: nat)
    ensures forall i :: 0 <= i < width ==> IsDigit(FixedWidth(n, width)[i])
    decreases width
  {
    if width > 0 {
      FixedWidthAllDigits(n / 10, width - 1);
    }
  }

  // ---------------------------------------------------------------------------
  // Python's int(s) in base 10.
  // ---------------------------------------------------------------------------

  /** The value of a run of digits, ignoring the underscores Python allows between them. */
  function DigitsValue(t: string): nat {
    if |t| == 0 then 0
    else if IsDigit(t[|t| - 1]) then DigitsValue(t[..|t| - 1]) * 10 + (t[|t| - 1] as int - 48)
    else DigitsValue(t[..|t| - 1])
  }

  /** Python's literal syntax for the magnitude of a base-10 integer: digits, with single
      underscores allowed between two digits. */
  predicate DigitGroups(t: string) {
    && |t| > 0
    && IsDigit(t[0])
    && IsDigit(t[|t| - 1])
    && (forall i :: 0 <= i < |t| ==> IsDigit(t[i]) || t[i] == '_')
    && (forall i :: 0 <= i < |t| - 1 ==> IsDigit(t[i]) || IsDigit(t[i + 1]))
  }

  /** The numeral after `int()` has stripped its argument: an optional sign and digit groups.
      `None` is the ValueError Python raises. */
  function ParseLiteral(s: string): Option<int> {
    if |s| > 0 && (s[0] == '-' || s[0] == '+') then
      if DigitGroups(s[1..]) then
        var magnitude: int := DigitsValue(s[1..]);
        Some(if s[0] == '-' then -magnitude else magnitude)
      else None
    else if DigitGroups(s) then Some(DigitsValue(s))
    else None
  }

  /** Python's `int(s)` on a string: surrounding whitespace is ignored. */
  function PyInt(s: string): Option<int> {
    ParseLiteral(Strip(s))
  }

  const IntErrorPrefix := "invalid literal for int() with base 10: "

  /** How many characters of the argument's quoted form the ValueError's text keeps. */
  const ReprLimit := 200

  /** The text of the ValueError `int(s)` raises: the argument between quotes, cut to its
      first 200 characters. */
  function IntErrorMessage(s: string): (r: string)
    ensures |IntErrorPrefix| < |r| <= |IntErrorPrefix| + ReprLimit
    ensures r[..|IntErrorPrefix|] == IntErrorPrefix
    ensures r[|IntErrorPrefix|..] <= "'" + s + "'"
    ensures r == IntErrorPrefix + "'" + s + "'" <==> |s| + 2 <= ReprLimit
  {
    var quoted := "'" + s + "'";
    IntErrorPrefix + (if |quoted| <= ReprLimit then quoted else quoted[..ReprLimit])
  }

  /** An argument of 199 characters or more loses its closing quote and everything past its
      199th character. */
  lemma LongLiteralCut(s: string)
    requires |s| >= ReprLimit - 1
    ensures IntErrorMessage(s) == IntErrorPrefix + "'" + s[..ReprLimit - 1]
  {
    var quoted := "'" + s + "'";
    assert quoted[..ReprLimit] == "'" + s[..ReprLimit - 1];
  }

  lemma {:induction false} DigitsValueFixedWidth(n: nat, width: nat)
    requires n < Pow10(width)
    ensures DigitsValue(FixedWidth(n, width)) == n
    decreases width
  {
    if width > 0 {
      var s := FixedWidth(n, width);
      assert s[..|s| - 1] == FixedWidth(n / 10, width - 1);
      DigitsValueFixedWidth(n / 10, width - 1);
      assert n == 10 * (n / 10) + n % 10;
    }
  }

  /** The numeral of a non-negative value is a run of digits worth that value. */
  lemma NumeralDigits(m: nat)
    ensures DigitGroups(ZeroPad(m, 0))
    ensures DigitsValue(ZeroPad(m, 0)) == m
  {
    var digits := ZeroPad(m, 0);
    assert digits == FixedWidth(m, NumDigits(m));
    NumDigitsFits(m);
    DigitsValueFixedWidth(m, NumDigits(m));
    FixedWidthAllDigits(m, NumDigits(m));
  }

  /** A digit run, signed or not, has no surrounding whitespace and reads back as its
      value. */
  lemma SignedLiteral(digits: string, negative: bool)
    requires DigitGroups(digits)
    ensures var s := (if negative then "-" else "") + digits;
      |s| > 0 && Trimmed(s)
      && ParseLiteral(s) == Some((if negative then -1 else 1) * DigitsValue(digits))
  {
    var s := (if negative then "-" else "") + digits;
    if negative {
      assert s[1..] == digits;
    } else {
      assert s == digits;
    }
  }

  /** `str(n)` is non-empty, has no surrounding whitespace, and reads back as `n`. */
  lemma DecimalLiteral(n: int)
    ensures |Decimal(n)| > 0 && Trimmed(Decimal(n))
    ensures ParseLiteral(Decimal(n)) == Some(n)
  {
    var m := if n < 0 then -n else n;
    NumeralDigits(m);
    SignedLiteral(ZeroPad(m, 0), n < 0);
    assert Decimal(n) == (if n < 0 then "-" else "") + ZeroPad(m, 0);
  }

  /** `int(str(n)) == n`. */
  lemma ParseDecimal(n: int)
    ensures PyInt(Decimal(n)) == Some(n)
  {
    DecimalLiteral(n);
    StripTrimmed(Decimal(n));
  }

  /** A line holding a text without surrounding whitespace strips back to that text. */
  lemma StripLine(d: string)
    requires |d| > 0 && Trimmed(d)
    ensures Strip(d + "\n") == d
  {
    assert d + "\n" == "" + d + "\n";
    StripPadded("", d, "\n");
  }

  /** A probe that prints a number followed by a newline is read back as that number. */
  lemma ParseDecimalLine(n: int)
    ensures PyInt(Strip(Decimal(n) + "\n")) == Some(n)
  {
    DecimalLiteral(n);
    StripLine(Decimal(n));
    ParseDecimal(n);
  }
}

=== FILE: wrappers.dfy ===
/** The optional-value datatype used throughout the model. */
module Wrappers {

  /** Either nothing, or one value. Stands for Python's `None` / a present value and for a
      dictionary key that may be absent. */
  datatype Option<+T> = None | Some(value: T)
}
